=== FILE: README.md ===
# picow-clock-emu: the clock engine and its command line, in Dafny

This project models the firmware of a Raspberry Pi Pico clock/pulse generator.
It puts out a square wave on two pins, the clock pin (GPIO 17) and the pulse
pin (GPIO 16). Frequencies below 10 Hz are toggled by a repeating timer.
From 10 Hz on, the PWM peripheral generates the wave.

The engine (`src/clock.c`) runs in one of two modes:

- astable: the wave runs continuously;
- monostable: the clock is stopped, and each step produces one pulse.

The command layer (`src/cmd.c`) does two things:

- it polls the serial console one character at a time into a 256-byte line buffer;
- it turns a finished line into one engine call.

The model works as follows:

- The engine's globals are one immutable `Engine` record.
- Every entry point (`clock_pulse_start`, `clock_pulse_stop`, `clock_set_freq_hz`, `clock_step`, `clock_step_pulse`, `clock_reset`, `clock_init`) is a pure function. It returns the next record and the SDK calls it made, in order, as a list of `Effect` values.
- The timer callback is a function that returns the new toggle, the pins it drove and its continue/stop answer.
- `Hardware.Replay` reads an effect list as the hardware state it leaves:
  - what each pin is routed to (nothing, SIO or PWM) and the level its SIO latch drives;
  - PWM slice 0, which both pins share (the pulse pin is channel A, the clock pin channel B): whether it runs, its divider and wrap, and each channel's level;
  - whether the repeating timer is armed.
  The hand-over properties are stated in those terms: a backend is "armed" when the slice runs or the timer is armed.
- The system clock frequency is a parameter, `sys`.
- `Command.Dispatch` maps the buffer contents and the mode to a `Command`.
- `Command.Execute` runs that command on the engine.
- `Command.Poll` is one run of `cmd_timer_callback`.

The model follows the code, including these behaviours:

- No entry point checks its argument or reports an error. Where the code would divide by zero or overflow, the model has a precondition:
  - the repeating timer needs a frequency of at least 1 Hz;
  - PWM needs `10 <= hz < 2^20` and a nonzero 32-bit system clock.
- `freq` with no number, or with text that is not a number, sets 0 Hz (`Command.FreqZeroDividesByZero`).
- Monostable mode is not forced onto the timer: `clock_pulse_start` does not look at the mode. In monostable mode at 10 Hz or more, `start` starts the PWM slice. A following step pulse also arms the timer, so both backends are armed at once. The step's `gpio_init` takes both pins back to SIO, so the slice keeps running, unrouted, while the timer drives the pins (`ClockProperties.MonostableStartThenStepArmsBoth`, and the whole command session in `Command.MonostableStartThenStepAt1kHz`).
- A monostable pulse ends with the pins high: the callback drives both pins high and answers "stop". The next step's `gpio_init` pulls them low again. A pulse always leaves the callback's toggle high, so from the second step on, the first callback only drives the already-low pins low, and the rising edge comes one 50 ms period later (`ClockProperties.MonostableOnePulse`, `ClockProperties.MonostableStepSelfStops`).
- PWM start enables the shared slice in its first `clock_set_pwm` call, for the pulse pin, before the second call writes the clock pin's level. In between, the clock channel runs at the new divider and wrap with its previous level (`ClockProperties.StartPwmEnablesBeforeClockLevel`).
- `clock_reset` keeps the mode. It writes `CLOCK_ASTABLE` (0) into the timer-type variable, and 0 happens to encode the repeating timer. In monostable mode the restart therefore arms the 50 ms timer, which gives one pulse and stops.
- The monostable self-stop does not clear `started`. In monostable mode the timer stops itself after one pulse, and the engine still says it is running, in three cases:
  - after a reset (`ClockProperties.MonostableResetStaysStarted`);
  - after `start` below 10 Hz (`ClockProperties.MonostableStartStaysStarted`);
  - after `freq` below 10 Hz (`ClockProperties.ExitAfterSelfStopIsSilent`).

  A further `start` then does nothing. `exit` then also makes no call: `clock_pulse_start` returns early, so the engine is astable with `started` set and nothing armed.
- Below 10 Hz the astable timer toggles the pins once per period of `1000 / hz` ms, so a full cycle takes two periods, and the wave runs at about half the set frequency. The PWM backend, from 10 Hz, runs at about the set frequency (`ClockProperties.TimerWaveAtHalfFrequency`).
- `clock_set_freq_hz` restarts the clock even when it was stopped.
- In monostable mode, any line that is not a command fires a step pulse. This includes the empty line.

## Model

| member | source | states |
|---|---|---|
| `Clock.TimerTypeOfCode` | src/clock.h:8-12 | Timer-type codes 0 and 1 decode to the repeating timer and PWM and encode back; any nonzero code reads as PWM, as the status display reads it |
| `Clock.TimerPeriodMs` | src/clock.c:254-257 | The timer period is 50 ms in monostable mode; in astable mode it is the largest whole number of milliseconds whose product with the frequency is at most 1000. It is zero exactly for astable frequencies above 1000 Hz, and above 100 ms for astable frequencies below 10 Hz |
| `Clock.StopEffects` | src/clock.c:209-213 | Stopping disables the slice of each pin and ends by cancelling the timer; nothing is configured, enabled or armed on the way |
| `Clock.StartRpt` | src/clock.c:246-262 | Both pins are made outputs before the timer is armed at the engine's period, as the last call; no PWM call and no cancel is made; only the timer type changes, to the repeating timer |
| `Clock.StartPwm` | src/clock.c:193-202 | Both pins are routed to PWM before any configuration; each enable comes right after the configuration of its pin with the derived divider, wrap and level; no timer call is made; the derived divider and wrap and the PWM timer type are recorded |
| `Clock.PulseStart` | src/clock.c:279-292 | A started engine is returned unchanged with no SDK calls; otherwise the engine is started, the repeating timer is recorded iff the frequency is below 10 Hz, and on the PWM path the stored divider and wrap are the PWM derivation's; mode, frequency and toggle are kept |
| `Clock.PulseStop` | src/clock.c:299-305 | Stopping only clears `started`; frequency, mode, divider, wrap and timer type are untouched |
| `Clock.SetFreq` | src/clock.c:162-168 | Whatever the previous state, the clock ends with `started` set at the new frequency, mode unchanged, on the repeating timer iff the frequency is below 10 Hz |
| `Clock.ClockStep` | src/clock.c:313-322 | Entering step mode gives monostable and stopped; leaving it gives astable with `started` set; the frequency is kept |
| `Clock.StepPulse` | src/clock.c:329-332 | A step pulse records the repeating timer and leaves `started`, mode and frequency as they were |
| `Clock.Reset` | src/clock.c:339-351 | Reset ends with `started` set, at the default 1 Hz, on the repeating timer, with divider and wrap 0, keeping the mode (so in monostable mode the timer is the 50 ms one-pulse timer) |
| `Clock.Init` | src/clock.c:358-362 | Start-up runs in astable mode at 1 Hz and arms a 1000 ms timer after making both pins outputs, and makes no other SDK call |
| `Clock.TimerCallback` | src/clock.c:221-239 | Each callback flips the toggle and drives both pins to its new value; it answers stop exactly on a rising edge in monostable mode |
| `Clock.Fire` | src/clock.c:230-238 | The timer is cancelled after a callback exactly when the callback answered stop |
| `Pwm.CeilDiv` | src/clock.c:179 | The integer ceiling `q` of `a / b` satisfies `(q-1)*b < a <= q*b` |
| `Pwm.Divider` | src/clock.c:179 | The divider is the least one for which the 65536-count span at `hz` covers `sys` |
| `Pwm.ExactWrap` | src/clock.c:180 | `sys / div / hz` is the floor of `sys / (div*hz)`: `w*div*hz <= sys < (w+1)*div*hz` |
| `Pwm.Configure` | src/clock.c:177-186 | Divider between 1 and 6554 with the ceiling property; the stored 16-bit wrap brackets `sys` unless the exact wrap is 65536, where it is 0; the channel level is half the wrap |
| `Pwm.DividerBounds` | src/clock.c:179 | For any 32-bit system clock and 10 Hz or more, the divider lies in 1..6554 and fits its 16-bit variable |
| `Pwm.DividerWithinClkdiv` | src/clock.c:182 | Up to about 167 MHz of system clock the divider stays within the 8-bit integer part of the PWM clock divider |
| `Pwm.ExactWrapBounds` | src/clock.c:179-180 | The exact wrap is at most 65536, equals 65536 iff `sys` is exactly `div*65536*hz` (the value the 16-bit store truncates to 0), and is at least 1 when `hz <= sys` |
| `Pwm.LevelIsHalfWrap` | src/clock.c:184 | The compare level is half the wrap, rounded down |
| `Pwm.ConfigureAt125MHz` | src/clock.c:179-184 | At 125 MHz and 1 kHz the divider is 2, the wrap 62500 and the level 31250, and `sys / div / wrap` is exactly 1000 |
| `Hardware.SharedSlice` | src/clock.c:198-199 | The pulse pin (GPIO 16) and the clock pin (GPIO 17) map to the same PWM slice 0, on channels A and B |
| `ClockProperties.StopQuiesces` | src/clock.c:209-213 | After a stop the shared slice is stopped and the timer is idle, from any hardware state; pin routing and slice configuration are left as they were; no step of the stop arms both backends |
| `ClockProperties.StartRptArms` | src/clock.c:246-262 | From any hardware state, both pins end routed to SIO and driven low, the timer is armed at the engine's period, and the slice is left as it was; when the slice was stopped, no step has both backends armed |
| `ClockProperties.StartPwmEnablesBeforeClockLevel` | src/clock.c:177-199 | After the first `clock_set_pwm` call the shared slice already runs with the new divider and wrap, channel A at the new level and channel B still at its old level |
| `ClockProperties.StartPwmArms` | src/clock.c:193-202 | With no timer armed, PWM start ends with both pins routed to PWM, the slice running at the derived divider and wrap with both channels at the derived level, and never has the timer armed as well |
| `ClockProperties.StopIdempotent` | src/clock.c:299-305 | Stopping twice gives the same engine and the same armed backends as stopping once |
| `ClockProperties.StartArmsRecordedBackend` | src/clock.c:279-292 | Starting a stopped engine on quiet hardware leaves exactly the backend the recorded timer type names: the timer at the recorded period with both pins driven low, or the slice running both pins at the recorded divider and wrap with a half-wrap level |
| `ClockProperties.RestartHandsOver` | src/clock.c:164-167 | Stop followed by start ends with exactly the recorded backend armed from any hardware state, both backends armed included; when at most one was armed before, no intermediate step has both armed |
| `ClockProperties.SetFreqHandsOver` | src/clock.c:162-168 | From any hardware state, both backends armed included, exactly the backend the new frequency chooses is armed at the end; when at most one was armed before, every prefix of the SDK calls leaves at most one armed |
| `ClockProperties.ResetHandsOver` | src/clock.c:339-351 | Reset from any hardware state, both backends armed included, ends with only the timer armed and both pins driven low; when at most one was armed before, no intermediate step has both armed |
| `ClockProperties.MonostableResetStaysStarted` | src/clock.c:339-351 | In monostable mode reset arms the 50 ms timer; after one pulse nothing is armed while `started` stays set, and `start` then makes no call and changes nothing |
| `ClockProperties.StepRoundTrip` | src/clock.c:313-322 | Entering and leaving step mode makes the same SDK calls and reaches the same engine as setting the unchanged frequency in astable mode |
| `ClockProperties.MonostableStartThenStepArmsBoth` | src/clock.c:279-292 | In monostable mode at 10 Hz or more, start then step pulse leaves the PWM slice running, still configured, while the 50 ms timer owns both pins, driven low; the recorded timer type says repeating timer |
| `ClockProperties.MonostableStartStaysStarted` | src/clock.c:279-292 | `start` below 10 Hz in monostable mode, from any hardware state, arms the 50 ms timer; after its one pulse the timer is idle and the slice as it was, while `started` stays set and a further `start` makes no call |
| `ClockProperties.ExitAfterSelfStopIsSilent` | src/clock.c:162-168 | `freq` below 10 Hz in monostable mode arms only the 50 ms timer; after its one pulse nothing is armed while `started` stays set, and leaving step mode then makes no call and gives astable with `started` set |
| `ClockProperties.StepStartPulse` | src/clock.c:279-332 | From any hardware state at 10 Hz or more, entering step mode, starting and a step pulse keep the mode monostable and leave both backends armed: the slice running at the derived wrap and the 50 ms timer, with both pins switched to the processor and driven low |
| `Command.StepStartEnter` | src/cmd.c:147-181 | From any engine at 10 Hz or more and any hardware, `step`, `start` and a step pulse leave the slice running at the derived wrap while the 50 ms timer owns both pins |
| `Command.MonostableStartThenStepAt1kHz` | src/cmd.c:147-181 | The lines `freq 1000`, `step`, `start` and an empty line select those commands; replaying every SDK call from power-on, start-up included, leaves the slice running at the 1 kHz wrap (62500 at 125 MHz) while the 50 ms timer owns both pins |
| `ClockProperties.Run` | src/clock.c:221-239 | A run of callbacks never changes the mode, the frequency or `started` |
| `ClockProperties.AstableFire` | src/clock.c:224-238 | An astable callback flips the toggle, drives both pins to the new level and never cancels the timer |
| `ClockProperties.AstableSquareWave` | src/clock.c:221-239 | Every two astable callbacks restore the toggle; 2n callbacks drive each pin high n times and low n times and never cancel |
| `ClockProperties.TimerWaveAtHalfFrequency` | src/clock.c:246-262 | Below 10 Hz a full astable timer cycle is two callbacks, back to the starting toggle, and lasts twice the period, between 2000 / hz - 2 and 2000 / hz ms, so about half the set frequency and always below it |
| `ClockProperties.MonostableFire` | src/clock.c:224-238 | A monostable callback drives the pins to the new toggle level and cancels the timer exactly on the rising edge |
| `ClockProperties.MonostableOnePulse` | src/clock.c:224-238 | The callbacks of a monostable step drive both pins high once and cancel the timer once, after one extra low-driving callback when the toggle was left high; the toggle ends high |
| `ClockProperties.MonostableStepSelfStops` | src/clock.c:246-262 | A step pulse on quiet hardware arms only the 50 ms timer with both pins driven low; after its callbacks nothing is armed and both pins are left driven high |
| `Decimal.Atoi` | src/cmd.c:159 | A string that is empty or does not start with a digit reads as 0 |
| `Decimal.AtoiShow` | src/cmd.c:159 | Reading back a written numeral, followed by any non-digit text, gives the number |
| `LineBuffer.CString` | src/cmd.c:213 | The string the executor sees is the prefix before the first NUL, and it holds no NUL |
| `LineBuffer.Clip` | src/cmd.c:218-221 | A line keeps its first 255 characters, is unchanged when shorter, and is a prefix of what was typed |
| `LineBuffer.Feed` | src/cmd.c:193-224 | A timeout changes nothing; a newline or carriage return submits the buffer as a C string and leaves the all-zero buffer; any other character extends the typed text, clipped at 255; the buffer stays valid |
| `LineBuffer.FeedAll` | src/cmd.c:193-224 | Any sequence of polls keeps the buffer valid: at most 255 characters held and the cells from the index on zero |
| `LineBuffer.TypeLine` | src/cmd.c:218-221 | Typing without a line end submits nothing and holds the first 255 characters typed; the rest are dropped |
| `LineBuffer.CStringOfValid` | src/cmd.c:201-220 | In a valid buffer the executed string is the typed text up to its first NUL |
| `LineBuffer.SubmitLine` | src/cmd.c:201-220 | From the empty buffer, typed characters without a line end followed by a newline submit exactly one line, the C string of the first 255 characters typed (cut at a typed NUL), and leave the buffer empty; without a typed NUL the line is those 255 characters |
| `LineBuffer.FeedAllAppend` | src/cmd.c:193-224 | Polling two input sequences one after the other submits the lines of the first followed by those of the second |
| `Command.Dispatch` | src/cmd.c:145-181 | Each keyword selects its command exactly; any line starting with `freq` selects `freq` with the number read at offset 5; `exit` counts only in monostable mode; every other line is a step pulse in monostable mode and unknown in astable mode |
| `Command.DispatchSpell` | src/cmd.c:145-181 | Every command the mode can issue is selected back from its spelling |
| `Command.FreqArgumentAtOffsetFive` | src/cmd.c:157-159 | The number is read from offset 5 whatever the fifth character is, a NUL included; a bare `freq`, or `freq ` followed by a non-number, sets 0 Hz |
| `Command.FreqZeroDividesByZero` | src/cmd.c:157-161 | `freq` without a number selects 0 Hz, which no engine can execute without dividing by zero |
| `Command.Execute` | src/cmd.c:145-181 | `?`, `clear` and unknown lines leave the engine unchanged and make no SDK call; `reboot` only reboots; step and exit set the mode; `freq` and reset set the frequency; start, exit, freq and reset leave the clock running; stop and step leave it stopped |
| `Command.ExecuteKeepsSound` | src/cmd.c:145-181 | From an engine whose frequency can be armed, every command but `freq` is safe, `freq` is safe exactly at an armable frequency, and the engine stays armable |
| `Command.Poll` | src/cmd.c:193-224 | A poll feeds the buffer; only a line end touches the engine, executing the dispatched buffer and leaving the buffer empty |
| `Command.DispatchTyped` | src/cmd.c:157-159 | For every valid buffer, a typed NUL included, dispatching the whole 256-cell buffer is dispatching the typed text, the `freq` argument included |
| `Command.FreqArgumentTyped` | src/cmd.c:158-159 | The text `atoi` reads at offset 5 of a valid buffer is the typed text's from offset 5, up to the first NUL |
| `Command.EnterCommand` | src/cmd.c:193-224 | Typing a command's spelling into the empty buffer and pressing enter executes exactly that command and empties the buffer |

## Left out

- SDK calls are recorded as effects with their arguments and read back by `Hardware.Replay` as register-level state. Pin electrical levels under PWM, the PWM counter itself, GPIO direction and pad settings, and slices other than slice 0 are not modelled. `clock_get_hz` becomes the parameter `sys`.
- Pwm.Divider: the source's single-precision `ceil((float) sys / (4096*hz) / 16)` is modelled as the exact integer ceiling. Float rounding can differ from it for large `sys`.
- Pwm.PwmInputs: for 2^20 Hz or more, `4096 * hz` overflows 32 bits. That case is excluded by precondition, not modelled.
- The system clock is taken to be nonzero. A zero system clock gives divider 0 and a division by zero, so that case is excluded.
- The divider the SDK receives is not limited to the clkdiv register's range. `Pwm.DividerWithinClkdiv` states the range that holds at usual system clocks.
- Clock.TimerPeriodMs: the source's `int ms` is exact here, because 1000 / hz fits. The period is zero for astable frequencies above 1000 Hz, so `clock_start_rpt` would arm a 0 ms timer there. The engine never does: it starts the astable timer only below 10 Hz (period above 100 ms), and a step pulse is dispatched only in monostable mode (50 ms). A 0 ms repeating timer is not modelled further.
- Decimal.Atoi: reads only a run of leading decimal digits. `atoi`'s leading white space, sign, and overflow past `int` are not modelled. Neither is the truncation of the result to `u_int32_t`. So `freq  12` (two spaces) or `freq -5` read differently in C.
- Timing and concurrency are not modelled:
  - the timer callback can interleave with commands;
  - `add_repeating_timer_ms` while a timer is still running (a step pulse while the previous pulse's timer is still active) starts a second alarm and overwrites the handle in `clock_timer`, so the earlier alarm can no longer be cancelled; the model keeps only the latest handle;
  - the 100 ms polling period is not modelled;
  - `cmd_flush` discards input typed while a command runs.
- Printing is not modelled: `cmd_info`, `cmd_help`, `cmd_boot_message`, the prompt, and the screen clear are terminal output only.
- `reset_usb_boot` is recorded as a single effect. Nothing after it is modelled.
- `cmd_stop`/`cmd_run` are not modelled. They cancel and re-add the polling timer and `free`/`malloc` the callback record.
- The read accessors (`clock_get_*`) are not modelled separately. They return the record's fields. The duty cycle is the constant 50 and is only displayed.
- `clock_set_duty_cycle` is declared in `src/clock.h` but never defined, so there is nothing to model.

=== FILE: clock.dfy ===
/** The clock-generation engine (`clock.c`): the engine's globals as one
    immutable record, every entry point as a pure transition that returns the
    next record together with the hardware effects it performed, and the
    repeating-timer callback with its continue/stop answer.

    No entry point validates its argument or reports an error; where the
    source would divide by zero the transition has a precondition instead. */
module Clock {
  import opened Hardware
  import opened Pwm

  /** CLOCK_DEF_FREQ_HZ */
  const DefaultFreqHz: nat := 1

  /** Astable timer period is 1000 / hz milliseconds; monostable uses a fixed 50 ms. */
  const MillisPerSecond: nat := 1000
  const MonostablePeriodMs: nat := 50

  /** CLOCK_ASTABLE = 0, CLOCK_MONOSTABLE = 1 */
  datatype Mode = Astable | Monostable

  function ModeCode(m: Mode): nat
  {
    match m
    case Astable => 0
    case Monostable => 1
  }

  /** CLOCK_TIMER_RPT = 0, CLOCK_TIMER_PWM = 1 */
  datatype TimerType = RepeatingTimer | PwmTimer

  function TimerTypeCode(t: TimerType): nat
  {
    match t
    case RepeatingTimer => 0
    case PwmTimer => 1
  }

  /** Reads an 8-bit timer-type value the way the status display does: zero is
      the repeating timer, anything else is PWM. */
  function TimerTypeOfCode(c: nat): (t: TimerType)
    ensures c <= 1 ==> TimerTypeCode(t) == c
    ensures TimerTypeOfCode(TimerTypeCode(t)) == t
    ensures t == PwmTimer <==> c != 0
  {
    if c == 0 then RepeatingTimer else PwmTimer
  }

  /** The engine's globals. `toggle` is the callback's static `state`. */
  datatype Engine = Engine(
    started: bool,
    mode: Mode,
    freqHz: nat,
    pwmDiv: nat,
    pwmWrap: nat,
    timerType: TimerType,
    toggle: bool)

  /** The globals' initial values, before `clock_init` runs. */
  const Boot := Engine(false, Astable, DefaultFreqHz, 0, 0, RepeatingTimer, false)

  /** The next engine state and the SDK calls made on the way, in order. */
  datatype Transition = Transition(next: Engine, effects: seq<Effect>)

  /** What starting a backend at `hz` needs so that no division by zero or
      32-bit overflow happens: hz >= 1 for the timer period 1000 / hz, and the
      PWM inputs when hz selects PWM. */
  predicate Armable(hz: nat, sys: nat)
  {
    1 <= hz && (PwmMinHz <= hz ==> PwmInputs(sys, hz))
  }

  /** The timer period `clock_start_rpt` arms. Only astable frequencies above
      1000 Hz give a zero period; the astable timer is only started below
      10 Hz, where the period is more than 100 ms. */
  function TimerPeriodMs(e: Engine): (ms: nat)
    requires e.freqHz >= 1
    ensures e.mode == Monostable ==> ms == MonostablePeriodMs
    ensures e.mode == Astable ==> ms * e.freqHz <= MillisPerSecond < (ms + 1) * e.freqHz
    ensures ms == 0 <==> e.mode == Astable && e.freqHz > MillisPerSecond
    ensures e.mode == Astable && e.freqHz < PwmMinHz ==> ms > 100
  {
    var period := MillisPerSecond / e.freqHz;
    PeriodBounds(period, e.freqHz);
    if e.mode == Monostable then MonostablePeriodMs else assert e.mode == Astable; period
  }

  /** The astable period read off its bracketing property. */
  lemma PeriodBounds(ms: nat, hz: nat)
    requires hz >= 1 && ms == MillisPerSecond / hz
    ensures ms * hz <= MillisPerSecond < (ms + 1) * hz
    ensures ms == 0 <==> hz > MillisPerSecond
    ensures hz < PwmMinHz ==> ms > 100
  {
    assert ms * hz <= MillisPerSecond < (ms + 1) * hz;
    if hz < PwmMinHz {
      assert (ms + 1) * hz <= (ms + 1) * PwmMinHz;
    }
    if ms >= 1 {
      assert hz <= ms * hz;
    }
  }

  /** `clock_stop_pwm` followed by `clock_stop_rpt`: the slice of each pin is
      disabled and then the timer is cancelled; nothing is configured, enabled
      or armed on the way. */
  function StopEffects(): (es: seq<Effect>)
    ensures PwmEnable(PulsePin, false) in es && PwmEnable(ClockPin, false) in es
    ensures |es| > 0 && es[|es| - 1] == TimerCancel
    ensures forall i :: 0 <= i < |es| ==> (es[i].PwmEnable? && !es[i].on) || es[i] == TimerCancel
  {
    [PwmEnable(PulsePin, false), PwmEnable(ClockPin, false), TimerCancel]
  }

  /** `clock_start_rpt`: both pins become plain outputs, then the timer is
      armed at the engine's period; only the timer type is recorded. */
  function StartRpt(e: Engine): (r: Transition)
    requires e.freqHz >= 1
    ensures r.next == e.(timerType := RepeatingTimer)
    ensures |r.effects| > 0 && r.effects[|r.effects| - 1] == TimerArm(TimerPeriodMs(e))
    ensures GpioOutput(ClockPin) in r.effects[..|r.effects| - 1] && GpioOutput(PulsePin) in r.effects[..|r.effects| - 1]
    ensures forall i :: 0 <= i < |r.effects| ==> !r.effects[i].PwmEnable? && !r.effects[i].PwmConfigure? && !r.effects[i].TimerCancel?
  {
    var es := [GpioOutput(ClockPin), GpioOutput(PulsePin), TimerArm(TimerPeriodMs(e))];
    assert es[..|es| - 1] == [GpioOutput(ClockPin), GpioOutput(PulsePin)];
    Transition(e.(timerType := RepeatingTimer), es)
  }

  /** `clock_start_pwm`: both pins are routed to PWM; then, pin by pin,
      `clock_set_pwm` writes the divider, wrap and level and enables the slice.
      The derived values and the timer type are recorded. */
  function StartPwm(e: Engine, sys: nat): (r: Transition)
    requires PwmInputs(sys, e.freqHz)
    ensures var c := Configure(sys, e.freqHz);
            r.next == e.(pwmDiv := c.div, pwmWrap := c.wrap, timerType := PwmTimer)
    ensures PwmEnable(PulsePin, true) in r.effects && PwmEnable(ClockPin, true) in r.effects
    ensures forall i :: 0 <= i < |r.effects| && r.effects[i].PwmEnable? ==>
              var c := Configure(sys, e.freqHz);
              r.effects[i].on && 0 < i && r.effects[i - 1] == PwmConfigure(r.effects[i].pin, c.div, c.wrap, c.level)
    ensures forall i :: 0 <= i < |r.effects| && r.effects[i].PwmConfigure? ==>
              GpioPwmFunction(PulsePin) in r.effects[..i] && GpioPwmFunction(ClockPin) in r.effects[..i]
    ensures forall i :: 0 <= i < |r.effects| ==> !r.effects[i].TimerArm? && !r.effects[i].TimerCancel? && !r.effects[i].GpioOutput?
  {
    var c := Configure(sys, e.freqHz);
    var es := [GpioPwmFunction(PulsePin), GpioPwmFunction(ClockPin),
               PwmConfigure(PulsePin, c.div, c.wrap, c.level), PwmEnable(PulsePin, true),
               PwmConfigure(ClockPin, c.div, c.wrap, c.level), PwmEnable(ClockPin, true)];
    PwmSetupOrder(c, es);
    Transition(e.(pwmDiv := c.div, pwmWrap := c.wrap, timerType := PwmTimer), es)
  }

  /** The order of `clock_start_pwm`'s calls: routing first, then each enable
      right after its pin's configuration. */
  lemma PwmSetupOrder(c: PwmConfig, es: seq<Effect>)
    requires es == [GpioPwmFunction(PulsePin), GpioPwmFunction(ClockPin),
                    PwmConfigure(PulsePin, c.div, c.wrap, c.level), PwmEnable(PulsePin, true),
                    PwmConfigure(ClockPin, c.div, c.wrap, c.level), PwmEnable(ClockPin, true)]
    ensures forall i :: 0 <= i < |es| && es[i].PwmEnable? ==>
              es[i].on && 0 < i && es[i - 1] == PwmConfigure(es[i].pin, c.div, c.wrap, c.level)
    ensures forall i :: 0 <= i < |es| && es[i].PwmConfigure? ==>
              GpioPwmFunction(PulsePin) in es[..i] && GpioPwmFunction(ClockPin) in es[..i]
  {
    forall i | 0 <= i < |es| && es[i].PwmConfigure?
      ensures GpioPwmFunction(PulsePin) in es[..i] && GpioPwmFunction(ClockPin) in es[..i]
    {
      assert i == 2 || i == 4;
      assert es[..i][0] == GpioPwmFunction(PulsePin) && es[..i][1] == GpioPwmFunction(ClockPin);
    }
  }

  /** `clock_pulse_start`: nothing at all when already started; otherwise the
      repeating timer below 10 Hz and PWM from 10 Hz on, whatever the mode. */
  function PulseStart(e: Engine, sys: nat): (r: Transition)
    requires e.started || Armable(e.freqHz, sys)
    ensures e.started ==> r == Transition(e, [])
    ensures !e.started ==> r.next.started
    ensures !e.started ==> (r.next.timerType == RepeatingTimer <==> e.freqHz < PwmMinHz)
    ensures r.next.mode == e.mode && r.next.freqHz == e.freqHz && r.next.toggle == e.toggle
    ensures r.next.timerType == RepeatingTimer ==> r.next.pwmDiv == e.pwmDiv && r.next.pwmWrap == e.pwmWrap
    ensures !e.started && r.next.timerType == PwmTimer ==>
              PwmInputs(sys, e.freqHz) && r.next.pwmDiv == Configure(sys, e.freqHz).div
              && r.next.pwmWrap == Configure(sys, e.freqHz).wrap
  {
    if e.started then
      Transition(e, [])
    else
      var s := if e.freqHz < PwmMinHz then StartRpt(e) else StartPwm(e, sys);
      Transition(s.next.(started := true), s.effects)
  }

  /** `clock_pulse_stop`: both backends are told to stop, whatever the state. */
  function PulseStop(e: Engine): (r: Transition)
    ensures r.next == e.(started := false)
  {
    Transition(e.(started := false), StopEffects())
  }

  /** `clock_set_freq_hz`: the frequency is stored, then the clock is stopped
      and started again, also when it was not running before. */
  function SetFreq(e: Engine, sys: nat, hz: nat): (r: Transition)
    requires Armable(hz, sys)
    ensures r.next.freqHz == hz && r.next.started && r.next.mode == e.mode
    ensures r.next.timerType == RepeatingTimer <==> hz < PwmMinHz
  {
    var stop := PulseStop(e.(freqHz := hz));
    var start := PulseStart(stop.next, sys);
    Transition(start.next, stop.effects + start.effects)
  }

  /** `clock_step(enable)`: entering monostable mode stops the clock; leaving it
      starts the clock again in astable mode. */
  function ClockStep(e: Engine, sys: nat, enable: bool): (r: Transition)
    requires enable || e.started || Armable(e.freqHz, sys)
    ensures enable ==> r.next.mode == Monostable && !r.next.started
    ensures !enable ==> r.next.mode == Astable && r.next.started
    ensures r.next.freqHz == e.freqHz
  {
    if enable then
      PulseStop(e.(mode := Monostable))
    else
      PulseStart(e.(mode := Astable), sys)
  }

  /** `clock_step_pulse`: arms the repeating timer directly, leaving `started` as it is. */
  function StepPulse(e: Engine): (r: Transition)
    requires e.freqHz >= 1
    ensures r.next.started == e.started && r.next.mode == e.mode && r.next.freqHz == e.freqHz
    ensures r.next.timerType == RepeatingTimer
  {
    StartRpt(e)
  }

  /** `clock_reset`: the frequency returns to the default, the derived PWM values
      are cleared, the timer type is overwritten with the value CLOCK_ASTABLE
      (which happens to encode the repeating timer), both backends are
      stopped, and the clock is started again. The mode is left as it was. */
  function Reset(e: Engine, sys: nat): (r: Transition)
    ensures r.next.freqHz == DefaultFreqHz && r.next.started
    ensures r.next.timerType == RepeatingTimer
    ensures r.next.pwmDiv == 0 && r.next.pwmWrap == 0
    ensures r.next.mode == e.mode && r.next.toggle == e.toggle
  {
    var cleared := e.(started := false, freqHz := DefaultFreqHz, pwmDiv := 0, pwmWrap := 0,
                      timerType := TimerTypeOfCode(ModeCode(Astable)));
    var start := PulseStart(cleared, sys);
    Transition(start.next, StopEffects() + start.effects)
  }

  /** `clock_init`: the clock starts at the default 1 Hz on the repeating timer,
      ticking once a second. */
  function Init(sys: nat): (r: Transition)
    ensures r.next.started && r.next.mode == Astable && r.next.freqHz == DefaultFreqHz
    ensures r.next.timerType == RepeatingTimer
    ensures r.effects == [GpioOutput(ClockPin), GpioOutput(PulsePin), TimerArm(MillisPerSecond)]
  {
    PulseStart(Boot, sys)
  }

  /** One invocation of the timer callback: the new toggle, the pins it drove,
      and whether the timer keeps repeating. */
  datatype Tick = Tick(next: Engine, effects: seq<Effect>, keepRunning: bool)

  /** Both pins driven to the same level, clock pin first. */
  function Drive(high: bool): seq<Effect>
  {
    [GpioPut(ClockPin, high), GpioPut(PulsePin, high)]
  }

  /** `clock_rpt_timer_callback`: flips the toggle; on the high edge both pins go
      high and the timer stops iff the mode (read at this moment) is
      monostable; on the low edge both pins go low and the timer continues. */
  function TimerCallback(e: Engine): (t: Tick)
    ensures t.next == e.(toggle := !e.toggle)
    ensures t.effects == Drive(t.next.toggle)
    ensures !t.keepRunning <==> t.next.toggle && e.mode == Monostable
  {
    var state := !e.toggle;
    if state then
      Tick(e.(toggle := state), Drive(true), e.mode != Monostable)
    else
      Tick(e.(toggle := state), Drive(false), true)
  }

  /** The SDK's handling of the callback's answer: a `false` answer cancels the timer. */
  function Fire(e: Engine): (r: Transition)
    ensures r.next == TimerCallback(e).next
    ensures TimerCancel in r.effects <==> !TimerCallback(e).keepRunning
  {
    var t := TimerCallback(e);
    Transition(t.next, t.effects + (if t.keepRunning then [] else [TimerCancel]))
  }
}

=== FILE: clock_properties.dfy ===
/** Properties of the engine that relate several calls, or a call and the
    hardware it leaves behind: stop is idempotent and quiesces both backends,
    start leaves exactly the recorded backend running, set-frequency and reset
    hand over from one backend to the other without ever having both armed,
    the monostable round trip is a restart, and the timer backend's toggle
    produces a square wave (astable) or one pulse per step (monostable). */
module ClockProperties {
  import opened Hardware
  import opened Pwm
  import opened Clock

  /** The hardware a start leaves behind, and nothing else: on the repeating
      timer, the timer at the recorded period, both pins plain outputs driven
      low and the slice stopped; on PWM, the slice running at the recorded
      divider and wrap with both channels at half the wrap, both pins routed
      to it, and no timer. */
  predicate StartedOn(h: Hw, e: Engine)
    requires e.freqHz >= 1
  {
    match e.timerType
    case RepeatingTimer =>
      !h.slice.enabled && h.timer == Armed(TimerPeriodMs(e)) && PinsDriven(h, false)
    case PwmTimer =>
      && h.slice.enabled && h.timer == Idle
      && h.pulse.mux == PwmOut && h.clock.mux == PwmOut
      && h.slice.div == e.pwmDiv && h.slice.wrap == e.pwmWrap
      && h.slice.levelA == e.pwmWrap / 2 && h.slice.levelB == e.pwmWrap / 2
  }

  /** Stopping stops the shared slice and cancels the timer, from any hardware
      state, and leaves the pins routed as they were and the slice configured
      as it was; no step of it arms both backends when that held before. */
  lemma StopQuiesces(e: Engine, h: Hw)
    ensures var q := Replay(h, PulseStop(e).effects);
            && Quiet(q) && q.pulse == h.pulse && q.clock == h.clock
            && q.slice == h.slice.(enabled := false)
    ensures Exclusive(h) ==> StaysExclusive(h, PulseStop(e).effects)
  {
    var h1 := Apply(h, PwmEnable(PulsePin, false));
    var h2 := Apply(h1, PwmEnable(ClockPin, false));
    assert StopEffects() == [PwmEnable(PulsePin, false)] + ([PwmEnable(ClockPin, false)] + ([TimerCancel] + []));
    ReplayCons(h, PwmEnable(PulsePin, false), [PwmEnable(ClockPin, false)] + ([TimerCancel] + []));
    ReplayCons(h1, PwmEnable(ClockPin, false), [TimerCancel] + []);
    ReplayCons(h2, TimerCancel, []);
    StaysExclusiveCons(h, PwmEnable(PulsePin, false), [PwmEnable(ClockPin, false)] + ([TimerCancel] + []));
    StaysExclusiveCons(h1, PwmEnable(ClockPin, false), [TimerCancel] + []);
    StaysExclusiveCons(h2, TimerCancel, []);
  }

  /** `clock_pulse_stop` is idempotent: a second stop yields the same engine,
      and its (repeated) disable calls change nothing on the hardware. */
  lemma StopIdempotent(e: Engine, h: Hw)
    ensures PulseStop(PulseStop(e).next).next == PulseStop(e).next
    ensures Replay(Replay(h, PulseStop(e).effects), PulseStop(e).effects) == Replay(h, PulseStop(e).effects)
  {
    StopQuiesces(e, h);
    StopQuiesces(e, Replay(h, PulseStop(e).effects));
  }

  /** `clock_start_rpt` from any hardware state: `gpio_init` routes both pins
      to SIO and drives them low, and the timer is armed at the engine's
      period; the slice is left as it was, so the timer is the only backend
      armed exactly when the slice was stopped. */
  lemma StartRptArms(e: Engine, h: Hw)
    requires e.freqHz >= 1
    ensures var hr := Replay(h, StartRpt(e).effects);
            && hr.slice == h.slice && hr.timer == Armed(TimerPeriodMs(e)) && PinsDriven(hr, false)
    ensures !h.slice.enabled ==> StaysExclusive(h, StartRpt(e).effects)
  {
    var arm := TimerArm(TimerPeriodMs(e));
    var h1 := Apply(h, GpioOutput(ClockPin));
    var h2 := Apply(h1, GpioOutput(PulsePin));
    assert StartRpt(e).effects == [GpioOutput(ClockPin)] + ([GpioOutput(PulsePin)] + ([arm] + []));
    ReplayCons(h, GpioOutput(ClockPin), [GpioOutput(PulsePin)] + ([arm] + []));
    ReplayCons(h1, GpioOutput(PulsePin), [arm] + []);
    ReplayCons(h2, arm, []);
    StaysExclusiveCons(h, GpioOutput(ClockPin), [GpioOutput(PulsePin)] + ([arm] + []));
    StaysExclusiveCons(h1, GpioOutput(PulsePin), [arm] + []);
    StaysExclusiveCons(h2, arm, []);
  }

  /** The first `clock_set_pwm` call, for the pulse pin, already enables the
      shared slice: between the two calls the slice runs the clock pin's
      channel at the new divider and wrap but at the level it held before. */
  lemma StartPwmEnablesBeforeClockLevel(e: Engine, sys: nat, h: Hw)
    requires PwmInputs(sys, e.freqHz)
    ensures var c := Configure(sys, e.freqHz);
            var mid := Replay(h, StartPwm(e, sys).effects[..4]);
            && mid.slice == Slice(true, c.div, c.wrap, c.level, h.slice.levelB)
            && mid.pulse.mux == PwmOut && mid.clock.mux == PwmOut && mid.timer == h.timer
    ensures h.timer == Idle ==> StaysExclusive(h, StartPwm(e, sys).effects[..4])
  {
    var c := Configure(sys, e.freqHz);
    assert StartPwm(e, sys).effects[..4] == [GpioPwmFunction(PulsePin), GpioPwmFunction(ClockPin),
                                             PwmConfigure(PulsePin, c.div, c.wrap, c.level), PwmEnable(PulsePin, true)];
    PulseChannelFirst(c, h);
  }

  /** Routing both pins, then configuring and enabling for the pulse pin. */
  lemma PulseChannelFirst(c: PwmConfig, h: Hw)
    ensures var mid := Replay(h, [GpioPwmFunction(PulsePin), GpioPwmFunction(ClockPin),
                                  PwmConfigure(PulsePin, c.div, c.wrap, c.level), PwmEnable(PulsePin, true)]);
            && mid.slice == Slice(true, c.div, c.wrap, c.level, h.slice.levelB)
            && mid.pulse.mux == PwmOut && mid.clock.mux == PwmOut && mid.timer == h.timer
    ensures h.timer == Idle ==>
              StaysExclusive(h, [GpioPwmFunction(PulsePin), GpioPwmFunction(ClockPin),
                                 PwmConfigure(PulsePin, c.div, c.wrap, c.level), PwmEnable(PulsePin, true)])
  {
    var f1 := GpioPwmFunction(PulsePin);
    var f2 := GpioPwmFunction(ClockPin);
    var cfg := PwmConfigure(PulsePin, c.div, c.wrap, c.level);
    var on := PwmEnable(PulsePin, true);
    var h1 := Apply(h, f1);
    var h2 := Apply(h1, f2);
    var h3 := Apply(h2, cfg);
    assert [f1, f2, cfg, on] == [f1] + ([f2] + ([cfg] + ([on] + [])));
    ReplayCons(h, f1, [f2] + ([cfg] + ([on] + [])));
    ReplayCons(h1, f2, [cfg] + ([on] + []));
    ReplayCons(h2, cfg, [on] + []);
    ReplayCons(h3, on, []);
    StaysExclusiveCons(h, f1, [f2] + ([cfg] + ([on] + [])));
    StaysExclusiveCons(h1, f2, [cfg] + ([on] + []));
    StaysExclusiveCons(h2, cfg, [on] + []);
    StaysExclusiveCons(h3, on, []);
  }

  /** `clock_start_pwm` with no timer armed: both pins routed to PWM, the
      shared slice running at the derived divider and wrap with both channels
      at the derived level, and at no point the timer armed as well. */
  lemma StartPwmArms(e: Engine, sys: nat, h: Hw)
    requires PwmInputs(sys, e.freqHz)
    requires h.timer == Idle
    ensures var c := Configure(sys, e.freqHz);
            var hr := Replay(h, StartPwm(e, sys).effects);
            && hr.slice == Slice(true, c.div, c.wrap, c.level, c.level)
            && hr.pulse.mux == PwmOut && hr.clock.mux == PwmOut && hr.timer == Idle
    ensures StaysExclusive(h, StartPwm(e, sys).effects)
  {
    var c := Configure(sys, e.freqHz);
    var es := StartPwm(e, sys).effects;
    StartPwmEnablesBeforeClockLevel(e, sys, h);
    assert es == es[..4] + [PwmConfigure(ClockPin, c.div, c.wrap, c.level), PwmEnable(ClockPin, true)];
    ClockChannelSecond(c, Replay(h, es[..4]));
    ReplayAppend(h, es[..4], [PwmConfigure(ClockPin, c.div, c.wrap, c.level), PwmEnable(ClockPin, true)]);
    StaysExclusiveAppend(h, es[..4], [PwmConfigure(ClockPin, c.div, c.wrap, c.level), PwmEnable(ClockPin, true)]);
  }

  /** Configuring and enabling for the clock pin writes channel B's level. */
  lemma ClockChannelSecond(c: PwmConfig, h: Hw)
    ensures Replay(h, [PwmConfigure(ClockPin, c.div, c.wrap, c.level), PwmEnable(ClockPin, true)])
            == h.(slice := h.slice.(enabled := true, div := c.div, wrap := c.wrap, levelB := c.level))
    ensures h.timer == Idle ==> StaysExclusive(h, [PwmConfigure(ClockPin, c.div, c.wrap, c.level), PwmEnable(ClockPin, true)])
  {
    var cfg := PwmConfigure(ClockPin, c.div, c.wrap, c.level);
    var on := PwmEnable(ClockPin, true);
    assert [cfg, on] == [cfg] + ([on] + []);
    ReplayCons(h, cfg, [on] + []);
    ReplayCons(Apply(h, cfg), on, []);
    StaysExclusiveCons(h, cfg, [on] + []);
    StaysExclusiveCons(Apply(h, cfg), on, []);
  }

  /** Starting a stopped engine on quiet hardware leaves exactly the backend
      the engine records in its timer type, and never both armed. */
  lemma StartArmsRecordedBackend(e: Engine, sys: nat, h: Hw)
    requires !e.started && Armable(e.freqHz, sys)
    requires Quiet(h)
    ensures StartedOn(Replay(h, PulseStart(e, sys).effects), PulseStart(e, sys).next)
    ensures StaysExclusive(h, PulseStart(e, sys).effects)
  {
    var r := PulseStart(e, sys);
    if e.freqHz < PwmMinHz {
      StartRptArms(e, h);
      assert TimerPeriodMs(r.next) == TimerPeriodMs(e);
    } else {
      StartPwmArms(e, sys, h);
      LevelIsHalfWrap(sys, e.freqHz);
    }
  }

  /** Stopping and then starting, from any hardware state (both backends
      armed included), ends with exactly the recorded backend armed; when at
      most one was armed before, no intermediate state has both armed: the
      old backend is disabled before the new one is armed. */
  lemma {:induction false} RestartHandsOver(e: Engine, sys: nat, h: Hw)
    requires Armable(e.freqHz, sys)
    ensures var stop := PulseStop(e);
            var start := PulseStart(stop.next, sys);
            StartedOn(Replay(h, stop.effects + start.effects), start.next)
    ensures var stop := PulseStop(e);
            var start := PulseStart(stop.next, sys);
            Exclusive(h) ==> StaysExclusive(h, stop.effects + start.effects)
  {
    var stop := PulseStop(e);
    var start := PulseStart(stop.next, sys);
    StopQuiesces(e, h);
    var q := Replay(h, stop.effects);
    StartArmsRecordedBackend(stop.next, sys, q);
    ReplayAppend(h, stop.effects, start.effects);
    if Exclusive(h) {
      StaysExclusiveAppend(h, stop.effects, start.effects);
    }
  }

  /** `clock_set_freq_hz` hands over between backends cleanly: from any
      hardware state, both backends armed included, it ends with exactly the
      one chosen by the new frequency armed; when at most one was armed
      before, every prefix of its SDK calls leaves at most one armed. */
  lemma SetFreqHandsOver(e: Engine, sys: nat, hz: nat, h: Hw)
    requires Armable(hz, sys)
    ensures StartedOn(Replay(h, SetFreq(e, sys, hz).effects), SetFreq(e, sys, hz).next)
    ensures Exclusive(h) ==>
              forall k :: 0 <= k <= |SetFreq(e, sys, hz).effects| ==> Exclusive(Replay(h, SetFreq(e, sys, hz).effects[..k]))
  {
    RestartHandsOver(e.(freqHz := hz), sys, h);
    var es := SetFreq(e, sys, hz).effects;
    if Exclusive(h) {
      forall k | 0 <= k <= |es|
        ensures Exclusive(Replay(h, es[..k]))
      {
        StaysExclusivePrefixes(h, es, k);
      }
    }
  }

  /** `clock_reset` from any hardware state, both backends armed included,
      ends with `started` set at 1 Hz on the repeating timer, with only that
      timer armed and both pins driven low; when at most one backend was
      armed before, no intermediate state has both armed. */
  lemma ResetHandsOver(e: Engine, sys: nat, h: Hw)
    ensures var hr := Replay(h, Reset(e, sys).effects);
            && !hr.slice.enabled && hr.timer == Armed(TimerPeriodMs(Reset(e, sys).next))
            && PinsDriven(hr, false)
    ensures Exclusive(h) ==> StaysExclusive(h, Reset(e, sys).effects)
  {
    var cleared := e.(started := false, freqHz := DefaultFreqHz, pwmDiv := 0, pwmWrap := 0,
                      timerType := RepeatingTimer);
    RestartHandsOver(cleared, sys, h);
    assert PulseStop(cleared).next == cleared;
  }

  /** Entering monostable mode and leaving it again is the same restart, call
      for call, as setting the unchanged frequency in astable mode: the same
      frequency, running, on the backend a fresh start at that frequency picks. */
  lemma StepRoundTrip(e: Engine, sys: nat)
    requires Armable(e.freqHz, sys)
    ensures var enter := ClockStep(e, sys, true);
            var exit := ClockStep(enter.next, sys, false);
            && enter.next.mode == Monostable && !enter.next.started
            && exit.next == SetFreq(e.(mode := Astable), sys, e.freqHz).next
            && enter.effects + exit.effects == SetFreq(e.(mode := Astable), sys, e.freqHz).effects
            && exit.next.mode == Astable && exit.next.started && exit.next.freqHz == e.freqHz
            && (exit.next.timerType == RepeatingTimer <==> e.freqHz < PwmMinHz)
  {
    var enter := ClockStep(e, sys, true);
    assert enter.next.(mode := Astable) == PulseStop(e.(mode := Astable).(freqHz := e.freqHz)).next;
  }

  /** The mode is not consulted when starting: in monostable mode at 10 Hz or
      more, `clock_pulse_start` starts the PWM slice, and a following step
      pulse arms the timer as well. The step's `gpio_init` takes both pins
      back to SIO, so the slice keeps running, unrouted, while the timer owns
      the pins, and the recorded timer type no longer names the running slice. */
  lemma MonostableStartThenStepArmsBoth(e: Engine, sys: nat, h: Hw)
    requires e.mode == Monostable && !e.started
    requires Armable(e.freqHz, sys) && PwmMinHz <= e.freqHz
    requires Quiet(h)
    ensures var start := PulseStart(e, sys);
            var step := StepPulse(start.next);
            var hw := Replay(h, start.effects + step.effects);
            && start.next.timerType == PwmTimer
            && hw.slice.enabled && hw.slice.wrap == start.next.pwmWrap
            && hw.timer == Armed(MonostablePeriodMs) && PinsDriven(hw, false)
            && step.next.timerType == RepeatingTimer && step.next.started
  {
    var start := PulseStart(e, sys);
    var step := StepPulse(start.next);
    StartArmsRecordedBackend(e, sys, h);
    StartRptArms(start.next, Replay(h, start.effects));
    ReplayAppend(h, start.effects, step.effects);
  }

  /** `n` successive timer callbacks, with the SDK cancelling the timer when a
      callback answers stop (later callbacks are still listed; the lemmas
      below only run as many as happen). */
  function Run(e: Engine, n: nat): (r: Transition)
    ensures r.next.mode == e.mode && r.next.freqHz == e.freqHz && r.next.started == e.started
    decreases n
  {
    if n == 0 then
      Transition(e, [])
    else
      var f := Fire(e);
      var rest := Run(f.next, n - 1);
      Transition(rest.next, f.effects + rest.effects)
  }

  lemma RunUnfold(e: Engine, n: nat)
    requires n >= 1
    ensures Run(e, n) == Transition(Run(Fire(e).next, n - 1).next, Fire(e).effects + Run(Fire(e).next, n - 1).effects)
  {
  }

  /** An astable callback only flips the toggle and drives the pins to its new value. */
  lemma AstableFire(e: Engine)
    requires e.mode == Astable
    ensures Fire(e) == Transition(e.(toggle := !e.toggle), Drive(!e.toggle))
  {
    assert TimerCallback(e).keepRunning;
    assert Drive(!e.toggle) + [] == Drive(!e.toggle);
  }

  /** How often driving both pins to `b` drives a given pin to a given level. */
  lemma DriveCount(b: bool, x: Effect)
    ensures Count(Drive(b), x) == (if x == GpioPut(ClockPin, b) || x == GpioPut(PulsePin, b) then 1 else 0)
  {
    var tail := [GpioPut(PulsePin, b)];
    assert Drive(b)[1..] == tail;
    assert tail[1..] == [];
    assert Count(tail, x) == (if tail[0] == x then 1 else 0) + Count(tail[1..], x);
  }

  /** Each pin driven high `n` times and low `n` times, and no timer cancel. */
  predicate SquareCounts(es: seq<Effect>, n: nat)
  {
    && Count(es, GpioPut(ClockPin, true)) == n && Count(es, GpioPut(ClockPin, false)) == n
    && Count(es, GpioPut(PulsePin, true)) == n && Count(es, GpioPut(PulsePin, false)) == n
    && Count(es, TimerCancel) == 0
  }

  /** Two astable callbacks drive the pins to the opposite level and back. */
  lemma AstableCycle(e: Engine, m: nat)
    requires e.mode == Astable && m >= 2
    ensures Run(e, m) == Transition(Run(e, m - 2).next, Drive(!e.toggle) + (Drive(e.toggle) + Run(e, m - 2).effects))
  {
    var e1 := e.(toggle := !e.toggle);
    AstableFire(e);
    RunUnfold(e, m);
    assert Run(e, m) == Transition(Run(e1, m - 1).next, Drive(!e.toggle) + Run(e1, m - 1).effects);
    AstableFire(e1);
    assert e1.(toggle := !e1.toggle) == e;
    RunUnfold(e1, m - 1);
    assert Run(e1, m - 1) == Transition(Run(e, m - 2).next, Drive(e.toggle) + Run(e, m - 2).effects);
  }

  /** Prepending one low and one high level (in either order) adds one of each per pin. */
  lemma CycleCounts(b: bool, rest: seq<Effect>, n: nat)
    requires SquareCounts(rest, n)
    ensures SquareCounts(Drive(!b) + (Drive(b) + rest), n + 1)
  {
    var es := Drive(!b) + (Drive(b) + rest);
    forall x: Effect
      ensures Count(es, x) == Count(Drive(!b), x) + Count(Drive(b), x) + Count(rest, x)
    {
      CountAppend(Drive(!b), Drive(b) + rest, x);
      CountAppend(Drive(b), rest, x);
    }
    forall x: Effect
      ensures Count(Drive(!b), x) + Count(Drive(b), x) == Count(Drive(true), x) + Count(Drive(false), x)
    {
      DriveCount(true, x);
      DriveCount(false, x);
    }
    DriveCount(true, GpioPut(ClockPin, true));
    DriveCount(false, GpioPut(ClockPin, true));
    DriveCount(true, GpioPut(ClockPin, false));
    DriveCount(false, GpioPut(ClockPin, false));
    DriveCount(true, GpioPut(PulsePin, true));
    DriveCount(false, GpioPut(PulsePin, true));
    DriveCount(true, GpioPut(PulsePin, false));
    DriveCount(false, GpioPut(PulsePin, false));
    DriveCount(true, TimerCancel);
    DriveCount(false, TimerCancel);
  }

  /** In astable mode the timer backend is a square wave: every two callbacks
      drive each pin high once and low once, the toggle returns to where it
      was, and the timer is never cancelled. */
  lemma {:induction false} AstableSquareWave(e: Engine, n: nat)
    requires e.mode == Astable
    ensures Run(e, 2 * n).next.toggle == e.toggle
    ensures SquareCounts(Run(e, 2 * n).effects, n)
  {
    if n > 0 {
      AstableCycle(e, 2 * n);
      assert 2 * n - 2 == 2 * (n - 1);
      AstableSquareWave(e, n - 1);
      CycleCounts(e.toggle, Run(e, 2 * (n - 1)).effects, n - 1);
    } else {
      assert 2 * n == 0;
      assert Run(e, 0) == Transition(e, []);
      assert Count([], GpioPut(ClockPin, true)) == 0;
    }
  }

  /** The timer backend toggles once per period, so a full astable cycle is
      two callbacks, back to the starting toggle, and lasts twice the period:
      between 2000 / hz - 2 and 2000 / hz milliseconds. Below 10 Hz the wave
      thus runs at about half the set frequency, and strictly below it,
      where the PWM backend gives about the set frequency. */
  lemma TimerWaveAtHalfFrequency(e: Engine)
    requires e.mode == Astable && 1 <= e.freqHz < PwmMinHz
    ensures Run(e, 2) == Transition(e, Drive(!e.toggle) + Drive(e.toggle))
    ensures var cycle := 2 * TimerPeriodMs(e);
            && cycle * e.freqHz <= 2 * MillisPerSecond < (cycle + 2) * e.freqHz
            && MillisPerSecond < cycle * e.freqHz
  {
    AstableCycle(e, 2);
    assert Run(e, 0) == Transition(e, []);
    assert Drive(e.toggle) + [] == Drive(e.toggle);
    var ms := TimerPeriodMs(e);
    assert 2 * ms * e.freqHz == 2 * (ms * e.freqHz);
    assert (2 * ms + 2) * e.freqHz == 2 * ((ms + 1) * e.freqHz);
  }

  /** How many callbacks a monostable step takes: one if the pins were low
      (straight to high), two if they were left high by the previous step. */
  function PulseCallbacks(e: Engine): nat
  {
    if e.toggle then 2 else 1
  }

  /** A monostable callback flips the toggle and drives the pins to its new
      value; it answers stop (and the SDK cancels the timer) exactly on the high edge. */
  lemma MonostableFire(e: Engine)
    requires e.mode == Monostable
    ensures Fire(e) == Transition(e.(toggle := !e.toggle), Drive(!e.toggle) + (if e.toggle then [] else [TimerCancel]))
  {
  }

  /** In monostable mode one step is one rising edge: the callbacks up to the
      stop answer drive both pins high and the SDK cancels the timer. When the
      previous pulse left the toggle high, the first callback spends one
      period driving low pins low again (the step's `gpio_init` already
      pulled them down), so the rising edge comes one period later. */
  lemma MonostableOnePulse(e: Engine)
    requires e.mode == Monostable
    ensures Run(e, PulseCallbacks(e)).next == e.(toggle := true)
    ensures Run(e, PulseCallbacks(e)).effects == (if e.toggle then Drive(false) else []) + Drive(true) + [TimerCancel]
    ensures e.toggle ==> TimerCallback(e).keepRunning
  {
    var e1 := e.(toggle := !e.toggle);
    MonostableFire(e);
    RunUnfold(e, PulseCallbacks(e));
    if e.toggle {
      MonostableFire(e1);
      RunUnfold(e1, 1);
      assert Run(e1.(toggle := !e1.toggle), 0) == Transition(e1.(toggle := true), []);
      assert Drive(false) + (Drive(true) + [TimerCancel] + []) == Drive(false) + Drive(true) + [TimerCancel];
    } else {
      assert Run(e1, 0) == Transition(e1, []);
      assert Drive(true) + [TimerCancel] + [] == [] + Drive(true) + [TimerCancel];
    }
  }

  /** Driving both pins sets both latches and touches nothing else. */
  lemma ReplayDrive(h: Hw, high: bool)
    ensures Replay(h, Drive(high)) == h.(clock := h.clock.(high := high), pulse := h.pulse.(high := high))
  {
    var h1 := Apply(h, GpioPut(ClockPin, high));
    assert Drive(high) == [GpioPut(ClockPin, high)] + ([GpioPut(PulsePin, high)] + []);
    ReplayCons(h, GpioPut(ClockPin, high), [GpioPut(PulsePin, high)] + []);
    ReplayCons(h1, GpioPut(PulsePin, high), []);
  }

  /** A monostable step pulse on quiet hardware arms only the 50 ms timer,
      with both pins taken low by `gpio_init`; once its callbacks have run,
      nothing is armed and both pins are left driven high. */
  lemma MonostableStepSelfStops(e: Engine, h: Hw)
    requires e.mode == Monostable && e.freqHz >= 1
    requires Quiet(h)
    ensures var step := StepPulse(e);
            var hArmed := Replay(h, step.effects);
            var hDone := Replay(hArmed, Run(step.next, PulseCallbacks(step.next)).effects);
            && !hArmed.slice.enabled && hArmed.timer == Armed(MonostablePeriodMs) && PinsDriven(hArmed, false)
            && Quiet(hDone) && PinsDriven(hDone, true)
  {
    var step := StepPulse(e);
    StartRptArms(e, h);
    MonostableOnePulse(step.next);
    ReplayPulse(Replay(h, step.effects), step.next.toggle);
  }

  /** The callbacks of one monostable pulse, replayed: both latches end high
      and the timer is cancelled; routing and slice are untouched. */
  lemma ReplayPulse(h: Hw, wasHigh: bool)
    ensures Replay(h, (if wasHigh then Drive(false) else []) + Drive(true) + [TimerCancel])
            == h.(clock := h.clock.(high := true), pulse := h.pulse.(high := true), timer := Idle)
  {
    var levels := (if wasHigh then Drive(false) else []) + Drive(true);
    ReplayAppend(h, levels, [TimerCancel]);
    if wasHigh {
      ReplayAppend(h, Drive(false), Drive(true));
      ReplayDrive(h, false);
      ReplayDrive(Replay(h, Drive(false)), true);
    } else {
      assert levels == Drive(true);
      ReplayDrive(h, true);
    }
    ReplayCons(Replay(h, levels), TimerCancel, []);
  }

  /** Reset keeps the mode, so in monostable mode it arms the 50 ms timer, and
      that timer stops itself after one pulse without clearing `started`: the
      engine then says it is running while nothing is armed, and `start` does
      nothing at all. */
  lemma MonostableResetStaysStarted(e: Engine, sys: nat, h: Hw)
    requires e.mode == Monostable
    ensures var r := Reset(e, sys);
            var hr := Replay(h, r.effects);
            var cb := Run(r.next, PulseCallbacks(r.next));
            && hr.timer == Armed(MonostablePeriodMs) && !hr.slice.enabled
            && Quiet(Replay(hr, cb.effects)) && cb.next.started
            && PulseStart(cb.next, sys) == Transition(cb.next, [])
  {
    var r := Reset(e, sys);
    ResetHandsOver(e, sys, h);
    MonostableOnePulse(r.next);
    ReplayPulse(Replay(h, r.effects), r.next.toggle);
  }

  /** `freq` below 10 Hz in monostable mode restarts on the 50 ms timer, which
      stops itself after one pulse without clearing `started`. Leaving step
      mode afterwards then makes no SDK call at all: the engine is astable
      and says it is running, while nothing is armed. */
  lemma ExitAfterSelfStopIsSilent(e: Engine, sys: nat, hz: nat, h: Hw)
    requires e.mode == Monostable && Armable(hz, sys) && hz < PwmMinHz
    ensures var s := SetFreq(e, sys, hz);
            var hs := Replay(h, s.effects);
            var cb := Run(s.next, PulseCallbacks(s.next));
            var x := ClockStep(cb.next, sys, false);
            && hs.timer == Armed(MonostablePeriodMs) && !hs.slice.enabled
            && Quiet(Replay(hs, cb.effects)) && cb.next.started
            && x.effects == [] && x.next.mode == Astable && x.next.started && x.next.freqHz == hz
  {
    var s := SetFreq(e, sys, hz);
    SetFreqHandsOver(e, sys, hz, h);
    MonostableOnePulse(s.next);
    ReplayPulse(Replay(h, s.effects), s.next.toggle);
  }

  /** `start` below 10 Hz in monostable mode, from any hardware state, arms
      the 50 ms timer; after its one pulse the timer is idle and the slice is
      as it was, while `started` stays set, so a further `start` does nothing. */
  lemma MonostableStartStaysStarted(e: Engine, sys: nat, h: Hw)
    requires e.mode == Monostable && !e.started && 1 <= e.freqHz < PwmMinHz
    ensures var s := PulseStart(e, sys);
            var hs := Replay(h, s.effects);
            var cb := Run(s.next, PulseCallbacks(s.next));
            var hq := Replay(hs, cb.effects);
            && hs.timer == Armed(MonostablePeriodMs) && hs.slice == h.slice
            && hq.timer == Idle && hq.slice == h.slice && (!h.slice.enabled ==> Quiet(hq))
            && cb.next.started && PulseStart(cb.next, sys) == Transition(cb.next, [])
  {
    var s := PulseStart(e, sys);
    StartRptArms(e, h);
    MonostableOnePulse(s.next);
    ReplayPulse(Replay(h, s.effects), s.next.toggle);
  }

  /** Entering step mode, starting, and a step pulse, from any hardware state
      at a PWM frequency: the slice keeps running at the derived wrap while
      the 50 ms timer owns both pins, driven low. */
  lemma StepStartPulse(e: Engine, sys: nat, h: Hw)
    requires Armable(e.freqHz, sys) && PwmMinHz <= e.freqHz
    ensures var enter := ClockStep(e, sys, true);
            var start := PulseStart(enter.next, sys);
            var step := StepPulse(start.next);
            var hw := Replay(h, enter.effects + start.effects + step.effects);
            && enter.next.mode == Monostable && start.next.mode == Monostable
            && hw.slice.enabled && hw.slice.wrap == Configure(sys, e.freqHz).wrap
            && hw.timer == Armed(MonostablePeriodMs) && PinsDriven(hw, false)
  {
    var enter := ClockStep(e, sys, true);
    var start := PulseStart(enter.next, sys);
    var step := StepPulse(start.next);
    StopQuiesces(e.(mode := Monostable), h);
    MonostableStartThenStepArmsBoth(enter.next, sys, Replay(h, enter.effects));
    assert enter.effects + start.effects + step.effects == enter.effects + (start.effects + step.effects);
    ReplayAppend(h, enter.effects, start.effects + step.effects);
  }
}

=== FILE: command.dfy ===
/** The command layer (`cmd.c`) without its terminal output: `cmd_execute`
    as a dispatch from the command buffer and the current mode to one engine
    action, the execution of that action, and one run of `cmd_timer_callback`,
    which feeds the line buffer and executes a completed line. */
module Command {
  import opened Hardware
  import opened Pwm
  import opened Clock
  import opened Decimal
  import opened LineBuffer
  import ClockProperties

  /** What one command line makes the engine do. `StepPulse` is any line not
      otherwise recognised in monostable mode; `Unknown` the same in astable
      mode, where only "unknown command" is printed. */
  datatype Command =
    | Help
    | Start
    | Stop
    | Step
    | Freq(hz: nat)
    | Reset
    | Reboot
    | Clear
    | Exit
    | StepPulse
    | Unknown

  /** `strncmp(cmd, "freq", 4) == 0`: the line starts with "freq". */
  predicate IsFreqLine(line: string)
  {
    |line| >= 4 && line[0] == 'f' && line[1] == 'r' && line[2] == 'e' && line[3] == 'q'
  }

  /** The string at `cmd + 5` that `atoi` reads the frequency from. The buffer
      holds 256 cells, so the offset is always inside it; past the end of a
      shorter `cmd` the argument is empty. */
  function FreqArgument(cmd: seq<char>): string
  {
    if |cmd| >= 5 then CString(cmd[5..]) else []
  }

  /** The lines that name a command in mode `m`; every other line is a step
      pulse or unknown. */
  predicate Recognised(line: string, m: Mode)
  {
    || line in {"?", "start", "stop", "step", "reset", "reboot", "clear"}
    || IsFreqLine(line)
    || (line == "exit" && m == Monostable)
  }

  /** The commands a line can select while the engine is in mode `m`. */
  predicate Issuable(c: Command, m: Mode)
  {
    match c
    case Exit => m == Monostable
    case StepPulse => m == Monostable
    case Unknown => m == Astable
    case _ => true
  }

  /** `cmd_execute`'s chain of comparisons on the C string in `cmd`. */
  function Dispatch(cmd: seq<char>, m: Mode): (c: Command)
    ensures Issuable(c, m)
    ensures c == Help <==> CString(cmd) == "?"
    ensures c == Start <==> CString(cmd) == "start"
    ensures c == Stop <==> CString(cmd) == "stop"
    ensures c == Step <==> CString(cmd) == "step"
    ensures c == Reset <==> CString(cmd) == "reset"
    ensures c == Reboot <==> CString(cmd) == "reboot"
    ensures c == Clear <==> CString(cmd) == "clear"
    ensures c == Exit <==> CString(cmd) == "exit" && m == Monostable
    ensures c.Freq? <==> IsFreqLine(CString(cmd))
    ensures c.Freq? ==> c.hz == Atoi(FreqArgument(cmd))
    ensures c == StepPulse <==> !Recognised(CString(cmd), m) && m == Monostable
    ensures c == Unknown <==> !Recognised(CString(cmd), m) && m == Astable
  {
    Select(CString(cmd), FreqArgument(cmd), m)
  }

  /** The same chain on a line and the text after its fifth character. */
  function Select(line: string, arg: string, m: Mode): (c: Command)
    ensures Issuable(c, m)
    ensures c == Help <==> line == "?"
    ensures c == Start <==> line == "start"
    ensures c == Stop <==> line == "stop"
    ensures c == Step <==> line == "step"
    ensures c == Reset <==> line == "reset"
    ensures c == Reboot <==> line == "reboot"
    ensures c == Clear <==> line == "clear"
    ensures c == Exit <==> line == "exit" && m == Monostable
    ensures c.Freq? <==> IsFreqLine(line)
    ensures c.Freq? ==> c.hz == Atoi(arg)
    ensures c == StepPulse <==> !Recognised(line, m) && m == Monostable
    ensures c == Unknown <==> !Recognised(line, m) && m == Astable
  {
    if line == "?" then Help
    else if line == "start" then Start
    else if line == "stop" then Stop
    else if line == "step" then Step
    else if IsFreqLine(line) then Freq(Atoi(arg))
    else if line == "reset" then Reset
    else if line == "reboot" then Reboot
    else if line == "clear" then Clear
    else if line == "exit" && m == Monostable then Exit
    else if m == Monostable then StepPulse
    else Unknown
  }

  /** A line that selects `c`: the inverse of `Dispatch`. */
  function Spell(c: Command): string
  {
    match c
    case Help => "?"
    case Start => "start"
    case Stop => "stop"
    case Step => "step"
    case Freq(hz) => "freq " + Show(hz)
    case Reset => "reset"
    case Reboot => "reboot"
    case Clear => "clear"
    case Exit => "exit"
    case StepPulse => ""
    case Unknown => ""
  }

  /** Round trip: every command a mode can issue is selected by its spelling. */
  lemma DispatchSpell(c: Command, m: Mode)
    requires Issuable(c, m)
    ensures Dispatch(Spell(c), m) == c
  {
    match c
    case Freq(hz) =>
      FreqNumber(' ', hz, m);
      assert "freq" + [' '] + Show(hz) == Spell(c);
    case Help => CStringNoNul("?");
    case Start => CStringNoNul("start");
    case Stop => CStringNoNul("stop");
    case Step => CStringNoNul("step");
    case Reset => CStringNoNul("reset");
    case Reboot => CStringNoNul("reboot");
    case Clear => CStringNoNul("clear");
    case Exit => CStringNoNul("exit");
    case StepPulse => CStringNoNul("");
    case Unknown => CStringNoNul("");
  }

  /** The argument starts at offset 5 whatever the fifth character is, so
      "freq=50" sets 50 Hz, and so does a NUL there, which ends the line at
      "freq" but not the text read at offset 5; a bare "freq", or an argument
      that does not start with a digit, sets 0 Hz. */
  lemma FreqArgumentAtOffsetFive(x: char, n: nat, s: string, m: Mode)
    requires s == [] || !IsDigit(s[0])
    ensures Dispatch("freq" + [x] + Show(n), m) == Freq(n)
    ensures Dispatch("freq", m) == Freq(0)
    ensures Dispatch("freq " + s, m) == Freq(0)
  {
    FreqNumber(x, n, m);
    FreqBare(m);
    FreqNonNumber(s, m);
  }

  lemma FreqNumber(x: char, n: nat, m: Mode)
    ensures Dispatch("freq" + [x] + Show(n), m) == Freq(n)
  {
    var d := Show(n);
    var line := "freq" + [x] + d;
    assert Nul !in d;
    assert line[5..] == d;
    CStringNoNul(d);
    assert FreqArgument(line) == d;
    AtoiShow(n, []);
    assert d + [] == d;
    if x == Nul {
      CStringPrefix(line, 4);
      assert line[..4] == "freq";
      CStringNoNul("freq");
    } else {
      DispatchFreqLine(line, m);
    }
  }

  lemma FreqBare(m: Mode)
    ensures Dispatch("freq", m) == Freq(0)
  {
    DispatchFreqLine("freq", m);
  }

  lemma FreqNonNumber(s: string, m: Mode)
    requires s == [] || !IsDigit(s[0])
    ensures Dispatch("freq " + s, m) == Freq(0)
  {
    var t := "freq " + s;
    CStringAppend("freq ", s);
    assert IsFreqLine(CString(t));
    assert t[5..] == s;
    assert FreqArgument(t) == CString(s);
    if s != [] && s[0] != Nul {
      assert CString(s)[0] == s[0];
    }
  }

  /** A NUL-free line starting with "freq" selects `freq` with the number at offset 5. */
  lemma DispatchFreqLine(line: string, m: Mode)
    requires Nul !in line && IsFreqLine(line)
    ensures Dispatch(line, m) == Freq(Atoi(FreqArgument(line)))
  {
    CStringNoNul(line);
  }

  /** What each command needs of the engine so that no division by zero or
      32-bit overflow happens on the way. */
  predicate Executable(e: Engine, sys: nat, c: Command)
  {
    match c
    case Start => e.started || Armable(e.freqHz, sys)
    case Exit => e.started || Armable(e.freqHz, sys)
    case Freq(hz) => Armable(hz, sys)
    case StepPulse => e.freqHz >= 1
    case _ => true
  }

  /** The engine invariant the command layer keeps: the stored frequency can be
      armed again, so `start`, `exit` and a step pulse are always safe. */
  predicate Sound(e: Engine, sys: nat)
  {
    Armable(e.freqHz, sys)
  }

  /** The engine calls `cmd_execute` makes for `c`; printing is not modelled. */
  function Execute(e: Engine, sys: nat, c: Command): (r: Transition)
    requires Executable(e, sys, c)
    ensures c == Help || c == Clear || c == Unknown ==> r == Transition(e, [])
    ensures c == Reboot ==> r == Transition(e, [RebootToBootloader])
    ensures r.next.mode == (match c case Step => Monostable case Exit => Astable case _ => e.mode)
    ensures r.next.freqHz == (match c case Freq(hz) => hz case Reset => DefaultFreqHz case _ => e.freqHz)
    ensures c == Start || c == Exit || c.Freq? || c == Reset ==> r.next.started
    ensures c == Stop || c == Step ==> !r.next.started
  {
    match c
    case Help => Transition(e, [])
    case Start => PulseStart(e, sys)
    case Stop => PulseStop(e)
    case Step => ClockStep(e, sys, true)
    case Freq(hz) => SetFreq(e, sys, hz)
    case Reset => Clock.Reset(e, sys)
    case Reboot => Transition(e, [RebootToBootloader])
    case Clear => Transition(e, [])
    case Exit => ClockStep(e, sys, false)
    case StepPulse => Clock.StepPulse(e)
    case Unknown => Transition(e, [])
  }

  /** In a sound engine every command except `freq` is executable, `freq` is
      executable exactly at an armable frequency, and soundness is kept. */
  lemma ExecuteKeepsSound(e: Engine, sys: nat, c: Command)
    requires Sound(e, sys)
    ensures !c.Freq? ==> Executable(e, sys, c)
    ensures c.Freq? ==> (Executable(e, sys, c) <==> Armable(c.hz, sys))
    ensures Executable(e, sys, c) ==> Sound(Execute(e, sys, c).next, sys)
  {
  }

  /** The hazard left in the source: "freq" with no number, or with text that
      is not a number, sets 0 Hz, and starting the repeating timer at 0 Hz
      divides 1000 by zero. */
  lemma FreqZeroDividesByZero(e: Engine, sys: nat, s: string, m: Mode)
    requires s == [] || !IsDigit(s[0])
    ensures Dispatch("freq", m) == Freq(0) && Dispatch("freq " + s, m) == Freq(0)
    ensures !Executable(e, sys, Freq(0))
  {
    FreqArgumentAtOffsetFive('x', 0, s, m);
  }

  /** The command buffer together with the engine it drives. */
  datatype Console = Console(buffer: Buffer, engine: Engine)

  /** The console after one poll and the engine calls made during it. */
  datatype Reaction = Reaction(next: Console, effects: seq<Effect>)

  /** The line a line end would execute now. */
  function Pending(con: Console): Command
  {
    Dispatch(con.buffer.chars, con.engine.mode)
  }

  /** One run of `cmd_timer_callback`: a line end executes the buffer and clears
      it; anything else only feeds the buffer. */
  function Poll(con: Console, sys: nat, input: Input): (r: Reaction)
    requires Valid(con.buffer)
    requires input.Received? && IsLineEnd(input.ch) ==> Executable(con.engine, sys, Pending(con))
    ensures Valid(r.next.buffer)
    ensures r.next.buffer == Feed(con.buffer, input).buffer
    ensures !(input.Received? && IsLineEnd(input.ch)) ==> r.next.engine == con.engine && r.effects == []
    ensures input.Received? && IsLineEnd(input.ch) ==>
              r.next.buffer == Empty && Transition(r.next.engine, r.effects) == Execute(con.engine, sys, Pending(con))
  {
    if input.Received? && IsLineEnd(input.ch) then
      Accept(Feed(con.buffer, input).buffer, Execute(con.engine, sys, Pending(con)))
    else
      Reaction(Console(Feed(con.buffer, input).buffer, con.engine), [])
  }

  function Accept(b: Buffer, t: Transition): Reaction
  {
    Reaction(Console(b, t.next), t.effects)
  }

  /** In a valid buffer, dispatching the whole buffer is dispatching what was
      typed, a typed NUL included: both end the line at the first NUL and read
      the `freq` argument from offset 5 up to the first NUL after it. */
  lemma DispatchTyped(b: Buffer, m: Mode)
    requires Valid(b)
    ensures Dispatch(b.chars, m) == Dispatch(Typed(b), m)
  {
    CStringOfValid(b);
    FreqArgumentTyped(b);
    assert Dispatch(b.chars, m) == Select(CString(b.chars), FreqArgument(b.chars), m);
    assert Dispatch(Typed(b), m) == Select(CString(Typed(b)), FreqArgument(Typed(b)), m);
  }

  /** The text at offset 5 of a valid buffer, read up to its first NUL, is the
      typed text's. */
  lemma FreqArgumentTyped(b: Buffer)
    requires Valid(b)
    ensures FreqArgument(b.chars) == FreqArgument(Typed(b))
  {
    var line := Typed(b);
    if |line| >= 5 {
      CStringPrefix(b.chars[5..], b.index - 5);
      assert b.chars[5..][..b.index - 5] == line[5..];
    } else {
      assert b.chars[5..][0] == Nul;
    }
  }

  /** The keys pressed to type `s`. */
  function Keys(s: string): (ins: seq<Input>)
    ensures |ins| == |s|
    ensures forall i :: 0 <= i < |s| ==> ins[i] == Received(s[i])
  {
    seq(|s|, i requires 0 <= i < |s| => Received(s[i]))
  }

  lemma {:induction false} CharsKeys(s: string)
    ensures Chars(Keys(s)) == s
    decreases |s|
  {
    if s != [] {
      assert Keys(s)[1..] == Keys(s[1..]);
      CharsKeys(s[1..]);
      assert s == [s[0]] + s[1..];
    }
  }

  /** No spelling contains a line end or a NUL. */
  lemma SpellIsPlain(c: Command)
    ensures forall i :: 0 <= i < |Spell(c)| ==> !IsLineEnd(Spell(c)[i]) && Spell(c)[i] != Nul
  {
    if c.Freq? {
      assert forall i :: 0 <= i < |Show(c.hz)| ==> IsDigit(Show(c.hz)[i]);
      forall i | 5 <= i < |Spell(c)|
        ensures IsDigit(Spell(c)[i])
      {
        assert Spell(c)[i] == Show(c.hz)[i - 5];
      }
    }
  }

  /** The buffer after typing `s` into the empty buffer, one poll per key. */
  function TypeIn(s: string): (b: Buffer)
    ensures Valid(b)
  {
    FeedAll(Empty, Keys(s)).buffer
  }

  /** End to end: typing the spelling of a command the mode can issue and
      pressing enter executes exactly that command and leaves the buffer empty. */
  lemma EnterCommand(e: Engine, sys: nat, c: Command)
    requires Issuable(c, e.mode) && Executable(e, sys, c)
    requires |Spell(c)| <= MaxLength
    ensures FeedAll(Empty, Keys(Spell(c))).lines == []
    ensures Pending(Console(TypeIn(Spell(c)), e)) == c
    ensures Poll(Console(TypeIn(Spell(c)), e), sys, Received('\n')).next == Console(Empty, Execute(e, sys, c).next)
    ensures Poll(Console(TypeIn(Spell(c)), e), sys, Received('\n')).effects == Execute(e, sys, c).effects
  {
    var s := Spell(c);
    var ins := Keys(s);
    SpellIsPlain(c);
    CharsKeys(s);
    assert NoLineEnd(ins);
    TypeLine(Empty, ins);
    var b := TypeIn(s);
    assert Typed(Empty) + s == s;
    assert Typed(b) == s;
    DispatchTyped(b, e.mode);
    DispatchSpell(c, e.mode);
  }

  /** A whole session: after start-up, the lines `freq 1000`, `step`, `start`
      and an empty line select those commands, and replaying every SDK call
      from power-on, start-up included, leaves the PWM slice running at the
      1 kHz wrap (62500 at a 125 MHz system clock) while the 50 ms timer owns
      both pins, which it has driven low. */
  lemma MonostableStartThenStepAt1kHz(sys: nat)
    requires PwmInputs(sys, 1000)
    ensures Dispatch("freq 1000", Astable) == Freq(1000)
    ensures Dispatch("step", Astable) == Step
    ensures Dispatch("start", Monostable) == Start
    ensures Dispatch("", Monostable) == StepPulse
    ensures var boot := Init(sys);
            var x1 := Execute(boot.next, sys, Freq(1000));
            var x2 := Execute(x1.next, sys, Step);
            var x3 := Execute(x2.next, sys, Start);
            var x4 := Execute(x3.next, sys, StepPulse);
            var hw := Replay(PowerOn, boot.effects + x1.effects + x2.effects + x3.effects + x4.effects);
            && boot.next.mode == Astable && x1.next.mode == Astable
            && x2.next.mode == Monostable && x3.next.mode == Monostable
            && hw.slice.enabled && hw.slice.wrap == Configure(sys, 1000).wrap
            && (sys == 125_000_000 ==> hw.slice.wrap == 62500)
            && hw.timer == Armed(MonostablePeriodMs) && PinsDriven(hw, false)
  {
    var boot := Init(sys);
    var x1 := Execute(boot.next, sys, Freq(1000));
    var x2 := Execute(x1.next, sys, Step);
    var x3 := Execute(x2.next, sys, Start);
    var x4 := Execute(x3.next, sys, StepPulse);
    var pre := boot.effects + x1.effects;
    StepStartEnter(x1.next, sys, Replay(PowerOn, pre));
    ConfigureAt125MHz();
    assert pre + x2.effects + x3.effects + x4.effects == pre + (x2.effects + x3.effects + x4.effects);
    ReplayAppend(PowerOn, pre, x2.effects + x3.effects + x4.effects);
    SessionLines();
  }

  /** From any engine at a PWM frequency and any hardware state, `step`,
      `start` and a step pulse leave the slice running at the derived wrap
      while the 50 ms timer owns both pins, driven low. */
  lemma StepStartEnter(e: Engine, sys: nat, h: Hw)
    requires Armable(e.freqHz, sys) && PwmMinHz <= e.freqHz
    ensures var x2 := Execute(e, sys, Step);
            var x3 := Execute(x2.next, sys, Start);
            var x4 := Execute(x3.next, sys, StepPulse);
            var hw := Replay(h, x2.effects + x3.effects + x4.effects);
            && x2.next.mode == Monostable && x3.next.mode == Monostable
            && hw.slice.enabled && hw.slice.wrap == Configure(sys, e.freqHz).wrap
            && hw.timer == Armed(MonostablePeriodMs) && PinsDriven(hw, false)
  {
    var x2 := Execute(e, sys, Step);
    var x3 := Execute(x2.next, sys, Start);
    var x4 := Execute(x3.next, sys, StepPulse);
    assert x2 == ClockStep(e, sys, true);
    assert x3 == PulseStart(x2.next, sys);
    assert x4 == Clock.StepPulse(x3.next);
    ClockProperties.StepStartPulse(e, sys, h);
  }

  /** The four lines of that session and the commands they select. */
  lemma SessionLines()
    ensures Dispatch("freq 1000", Astable) == Freq(1000)
    ensures Dispatch("step", Astable) == Step
    ensures Dispatch("start", Monostable) == Start
    ensures Dispatch("", Monostable) == StepPulse
  {
    FreqThousand();
    CStringNoNul("step");
    CStringNoNul("start");
    CStringNoNul("");
  }

  lemma FreqThousand()
    ensures Dispatch("freq 1000", Astable) == Freq(1000)
  {
    assert Show(1) == "1";
    assert Show(10) == Show(1) + "0" == "10";
    assert Show(100) == Show(10) + "0" == "100";
    assert Show(1000) == Show(100) + "0" == "1000";
    FreqNumber(' ', 1000, Astable);
    assert "freq" + [' '] + Show(1000) == "freq 1000";
  }
}

=== FILE: decimal.dfy ===
/** The `atoi` the command layer uses to read a frequency, restricted to what
    the commands can produce: it reads the decimal digits at the front of a
    string, left to right, and yields 0 when there are none. `Show` writes a
    number in decimal and is its partner: reading back what `Show` wrote gives
    the number. */
module Decimal {

  predicate IsDigit(c: char)
  {
    '0' <= c <= '9'
  }

  function DigitValue(c: char): (d: nat)
    requires IsDigit(c)
    ensures d < 10
  {
    (c as int) - ('0' as int)
  }

  function DigitChar(d: nat): (c: char)
    requires d < 10
    ensures IsDigit(c) && DigitValue(c) == d
  {
    (('0' as int) + d) as char
  }

  /** Continues an `atoi` that has accumulated `acc` so far. */
  function AtoiFrom(s: string, acc: nat): nat
    decreases |s|
  {
    if s == [] || !IsDigit(s[0]) then acc else AtoiFrom(s[1..], acc * 10 + DigitValue(s[0]))
  }

  /** `atoi` on a string of digits followed by anything: a string that does not
      start with a digit (the empty string included) reads as 0. */
  function Atoi(s: string): (v: nat)
    ensures s == [] || !IsDigit(s[0]) ==> v == 0
  {
    AtoiFrom(s, 0)
  }

  /** The decimal numeral of `n`, without leading zeros. */
  function Show(n: nat): (s: string)
    ensures |s| >= 1
    ensures forall i :: 0 <= i < |s| ==> IsDigit(s[i])
    ensures |s| > 1 ==> s[0] != '0'
    decreases n
  {
    if n < 10 then [DigitChar(n)] else Show(n / 10) + [DigitChar(n % 10)]
  }

  /** Reading a run of digits and then more is continuing from where the run left off. */
  lemma {:induction false} AtoiFromDigits(s: string, t: string, acc: nat)
    requires forall i :: 0 <= i < |s| ==> IsDigit(s[i])
    ensures AtoiFrom(s + t, acc) == AtoiFrom(t, AtoiFrom(s, acc))
    decreases |s|
  {
    if s != [] {
      assert (s + t)[0] == s[0];
      assert (s + t)[1..] == s[1..] + t;
      AtoiFromDigits(s[1..], t, acc * 10 + DigitValue(s[0]));
    } else {
      assert s + t == t;
    }
  }

  /** Round trip: `atoi` reads back the number `Show` wrote, whatever
      non-digit text follows it. */
  lemma {:induction false} AtoiShow(n: nat, rest: string)
    requires rest == [] || !IsDigit(rest[0])
    ensures Atoi(Show(n) + rest) == n
    decreases n
  {
    var d := DigitChar(n % 10);
    if n < 10 {
      assert Show(n) + rest == [d] + rest;
      AtoiFromDigits([d], rest, 0);
      assert AtoiFrom([d], 0) == AtoiFrom([], DigitValue(d));
    } else {
      AtoiShow(n / 10, []);
      assert Show(n / 10) + [] == Show(n / 10);
      assert Show(n) + rest == Show(n / 10) + ([d] + rest);
      AtoiFromDigits(Show(n / 10), [d] + rest, 0);
      AtoiFromDigits([d], rest, n / 10);
      assert AtoiFrom([d], n / 10) == AtoiFrom([], n / 10 * 10 + DigitValue(d));
    }
  }
}

=== FILE: hardware.dfy ===
/** The narrow hardware interface the clock engine drives: the two output
    pins, the PWM slice they share and one repeating timer. Every SDK call the
    engine makes is recorded as an Effect; `Replay` interprets a trace of
    effects as the state it leaves: what each pin is routed to and drives,
    whether the slice runs and with which divider, wrap and levels, and
    whether the timer is armed. */
module Hardware {

  /** The two output pins: PULSE_PIN is GPIO 16 and CLOCK_PIN is GPIO 17. */
  datatype Pin = PulsePin | ClockPin

  function GpioNumber(p: Pin): nat
  {
    match p
    case PulsePin => 16
    case ClockPin => 17
  }

  /** The two outputs of a PWM slice. */
  datatype Channel = ChannelA | ChannelB

  /** `pwm_gpio_to_slice_num`: every slice serves two consecutive GPIOs, and
      the numbering repeats every 16 GPIOs over the eight slices. */
  function SliceNumber(p: Pin): nat
  {
    GpioNumber(p) / 2 % 8
  }

  /** `pwm_gpio_to_channel`: the even GPIO of a pair is channel A, the odd one B. */
  function ChannelOf(p: Pin): Channel
  {
    if GpioNumber(p) % 2 == 0 then ChannelA else ChannelB
  }

  /** Both pins sit on slice 0, the pulse pin on channel A and the clock pin on
      channel B: enabling or disabling "the slice of" either pin runs or stops
      both outputs, and the two `clock_set_pwm` calls write the same divider
      and wrap registers. */
  lemma SharedSlice()
    ensures SliceNumber(PulsePin) == SliceNumber(ClockPin) == 0
    ensures ChannelOf(PulsePin) == ChannelA && ChannelOf(ClockPin) == ChannelB
  {
  }

  /** One call into the SDK, in the order the engine issues them. */
  datatype Effect =
    | GpioOutput(pin: Pin)                                    // gpio_init + gpio_set_dir(pin, GPIO_OUT)
    | GpioPwmFunction(pin: Pin)                               // gpio_set_function(pin, GPIO_FUNC_PWM)
    | GpioPut(pin: Pin, high: bool)                           // gpio_put(pin, level)
    | PwmConfigure(pin: Pin, div: nat, wrap: nat, level: nat) // clkdiv, wrap and channel level of the pin
    | PwmEnable(pin: Pin, on: bool)                           // pwm_set_enabled on the pin's slice
    | TimerArm(periodMs: int)                                 // add_repeating_timer_ms
    | TimerCancel                                             // cancel_repeating_timer
    | RebootToBootloader                                      // reset_usb_boot

  /** The repeating timer handle `clock_timer`. */
  datatype Timer = Idle | Armed(periodMs: int)

  /** What a GPIO is routed to: nothing after power-on, the SIO block (driven
      by software) or its PWM channel. */
  datatype PinFunction = NoFunction | Sio | PwmOut

  /** A pin's routing and the level its SIO output latch holds; the latch only
      reaches the pin while the pin is routed to SIO. */
  datatype PinState = PinState(mux: PinFunction, high: bool)

  /** Slice 0: whether its counter runs, its divider and wrap, and the compare
      level of each channel. */
  datatype Slice = Slice(enabled: bool, div: nat, wrap: nat, levelA: nat, levelB: nat)

  /** The peripherals the engine touches. */
  datatype Hw = Hw(pulse: PinState, clock: PinState, slice: Slice, timer: Timer)

  /** Reset values: pins unrouted and low, the slice stopped with divider 1,
      wrap 0xffff and both levels 0, no timer. */
  const PowerOn := Hw(PinState(NoFunction, false), PinState(NoFunction, false), Slice(false, 1, 0xffff, 0, 0), Idle)

  function PinOf(h: Hw, p: Pin): PinState
  {
    match p
    case PulsePin => h.pulse
    case ClockPin => h.clock
  }

  function WithPin(h: Hw, p: Pin, s: PinState): Hw
  {
    match p
    case PulsePin => h.(pulse := s)
    case ClockPin => h.(clock := s)
  }

  function WithLevel(s: Slice, ch: Channel, level: nat): Slice
  {
    match ch
    case ChannelA => s.(levelA := level)
    case ChannelB => s.(levelB := level)
  }

  /** One SDK call. `gpio_init` routes the pin to SIO and clears its latch;
      every PWM call of either pin acts on slice 0 (`SharedSlice`); a new timer
      replaces the recorded handle. */
  function Apply(h: Hw, e: Effect): Hw
  {
    match e
    case GpioOutput(p) => WithPin(h, p, PinState(Sio, false))
    case GpioPwmFunction(p) => WithPin(h, p, PinOf(h, p).(mux := PwmOut))
    case GpioPut(p, high) => WithPin(h, p, PinOf(h, p).(high := high))
    case PwmConfigure(p, div, wrap, level) => h.(slice := WithLevel(h.slice.(div := div, wrap := wrap), ChannelOf(p), level))
    case PwmEnable(_, on) => h.(slice := h.slice.(enabled := on))
    case TimerArm(ms) => h.(timer := Armed(ms))
    case TimerCancel => h.(timer := Idle)
    case RebootToBootloader => h
  }

  /** The hardware state after performing `es` in order, starting from `h`. */
  function Replay(h: Hw, es: seq<Effect>): Hw
    decreases |es|
  {
    if es == [] then h else Replay(Apply(h, es[0]), es[1..])
  }

  /** Neither backend is armed: the slice is stopped and no timer is armed. */
  predicate Quiet(h: Hw)
  {
    !h.slice.enabled && h.timer == Idle
  }

  /** At most one of the two backends is armed. */
  predicate Exclusive(h: Hw)
  {
    !h.slice.enabled || h.timer == Idle
  }

  /** Both pins routed to SIO and driven to `high`. */
  predicate PinsDriven(h: Hw, high: bool)
  {
    h.pulse == PinState(Sio, high) && h.clock == PinState(Sio, high)
  }

  /** Every intermediate hardware state while performing `es` from `h`
      (including the first and the last) has at most one backend armed. */
  predicate StaysExclusive(h: Hw, es: seq<Effect>)
    decreases |es|
  {
    Exclusive(h) && (es == [] || StaysExclusive(Apply(h, es[0]), es[1..]))
  }

  lemma ReplayCons(h: Hw, a: Effect, es: seq<Effect>)
    ensures Replay(h, [a] + es) == Replay(Apply(h, a), es)
  {
    assert ([a] + es)[0] == a;
    assert ([a] + es)[1..] == es;
  }

  lemma StaysExclusiveCons(h: Hw, a: Effect, es: seq<Effect>)
    ensures StaysExclusive(h, [a] + es) <==> Exclusive(h) && StaysExclusive(Apply(h, a), es)
  {
    assert ([a] + es)[0] == a;
    assert ([a] + es)[1..] == es;
  }

  /** How often `x` occurs in `es`. */
  function Count(es: seq<Effect>, x: Effect): nat
    decreases |es|
  {
    if es == [] then 0 else (if es[0] == x then 1 else 0) + Count(es[1..], x)
  }

  lemma {:induction false} CountAppend(a: seq<Effect>, b: seq<Effect>, x: Effect)
    ensures Count(a + b, x) == Count(a, x) + Count(b, x)
    decreases |a|
  {
    if a == [] {
      assert a + b == b;
    } else {
      assert (a + b)[0] == a[0];
      assert (a + b)[1..] == a[1..] + b;
      CountAppend(a[1..], b, x);
    }
  }

  /** Performing two traces one after the other is performing their concatenation. */
  lemma {:induction false} ReplayAppend(h: Hw, a: seq<Effect>, b: seq<Effect>)
    ensures Replay(h, a + b) == Replay(Replay(h, a), b)
    decreases |a|
  {
    if a == [] {
      assert a + b == b;
    } else {
      assert (a + b)[0] == a[0];
      assert (a + b)[1..] == a[1..] + b;
      ReplayAppend(Apply(h, a[0]), a[1..], b);
    }
  }

  /** Exclusivity along a concatenation follows from exclusivity along each part. */
  lemma {:induction false} StaysExclusiveAppend(h: Hw, a: seq<Effect>, b: seq<Effect>)
    requires StaysExclusive(h, a)
    requires StaysExclusive(Replay(h, a), b)
    ensures StaysExclusive(h, a + b)
    decreases |a|
  {
    if a == [] {
      assert a + b == b;
    } else {
      assert (a + b)[0] == a[0];
      assert (a + b)[1..] == a[1..] + b;
      StaysExclusiveAppend(Apply(h, a[0]), a[1..], b);
    }
  }

  /** StaysExclusive is the recursive form of "every prefix leaves at most one backend armed". */
  lemma {:induction false} StaysExclusivePrefixes(h: Hw, es: seq<Effect>, k: nat)
    requires StaysExclusive(h, es)
    requires k <= |es|
    ensures Exclusive(Replay(h, es[..k]))
    decreases |es|
  {
    if k == 0 {
      assert es[..k] == [];
    } else {
      assert es[..k][0] == es[0];
      assert es[..k][1..] == es[1..][..k - 1];
      StaysExclusivePrefixes(Apply(h, es[0]), es[1..], k - 1);
    }
  }
}

=== FILE: line_buffer.dfy ===
/** The command line buffer that `cmd_timer_callback` fills one polled
    character at a time: a 256-character zero-filled array and an index.
    A newline or carriage return hands the buffer (read as a C string) to the
    command executor and clears it; any other character is stored while fewer
    than 255 are held, and dropped after that, so the last cell stays zero. */
module LineBuffer {

  const BufferSize: nat := 256

  /** sizeof(cmd_buffer) - 1: the most characters a line can hold. */
  const MaxLength: nat := 255

  const Nul: char := '\0'

  datatype Buffer = Buffer(chars: seq<char>, index: nat)

  /** 256 cells, at most 255 of them in use, and every cell from the index on zero. */
  predicate Valid(b: Buffer)
  {
    && |b.chars| == BufferSize
    && b.index <= MaxLength
    && forall k :: b.index <= k < BufferSize ==> b.chars[k] == Nul
  }

  /** `n` zero cells. */
  function Zeros(n: nat): (z: seq<char>)
    ensures |z| == n && forall k :: 0 <= k < n ==> z[k] == Nul
  {
    seq(n, _ => Nul)
  }

  /** The zero-filled buffer, at start-up and after every executed line. */
  const Empty: Buffer := Buffer(Zeros(BufferSize), 0)

  /** The characters stored so far. */
  function Typed(b: Buffer): string
    requires Valid(b)
  {
    b.chars[..b.index]
  }

  /** The string a `char *` to `s` denotes: everything before the first NUL. */
  function CString(s: seq<char>): (r: string)
    ensures |r| <= |s| && r == s[..|r|]
    ensures Nul !in r
    ensures |r| < |s| ==> s[|r|] == Nul
    decreases |s|
  {
    if s == [] || s[0] == Nul then [] else [s[0]] + CString(s[1..])
  }

  /** A line keeps its first 255 characters. */
  function Clip(s: string): (r: string)
    ensures |r| <= MaxLength && |r| <= |s|
    ensures r == s[..|r|]
    ensures |s| <= MaxLength ==> r == s
    ensures |s| > MaxLength ==> |r| == MaxLength
  {
    if |s| <= MaxLength then s else s[..MaxLength]
  }

  /** What `getchar_timeout_us(0)` returned. */
  datatype Input = Timeout | Received(ch: char)

  predicate IsLineEnd(c: char)
  {
    c == '\n' || c == '\r'
  }

  datatype Submission = NoLine | Line(text: string)

  /** The buffer after one poll, and the line handed to the executor, if any. */
  datatype Polled = Polled(buffer: Buffer, submitted: Submission)

  /** One run of the polling callback's buffer logic. */
  function Feed(b: Buffer, input: Input): (r: Polled)
    requires Valid(b)
    ensures Valid(r.buffer)
    ensures input.Timeout? ==> r == Polled(b, NoLine)
    ensures input.Received? && IsLineEnd(input.ch) ==>
              r.buffer == Empty && r.submitted == Line(CString(b.chars))
    ensures input.Received? && !IsLineEnd(input.ch) ==>
              r.submitted == NoLine && Typed(r.buffer) == Clip(Typed(b) + [input.ch])
  {
    match input
    case Timeout => Polled(b, NoLine)
    case Received(c) =>
      if IsLineEnd(c) then
        Polled(Empty, Line(CString(b.chars)))
      else if b.index < MaxLength then
        Polled(Buffer(b.chars[b.index := c], b.index + 1), NoLine)
      else
        Polled(b, NoLine)
  }

  /** The buffer after a sequence of polls, and the lines submitted on the way. */
  datatype Session = Session(buffer: Buffer, lines: seq<string>)

  /** The line a poll handed to the executor, as a list of zero or one lines. */
  function Emitted(p: Polled): seq<string>
  {
    if p.submitted.Line? then [p.submitted.text] else []
  }

  function FeedAll(b: Buffer, ins: seq<Input>): (r: Session)
    requires Valid(b)
    ensures Valid(r.buffer)
    decreases |ins|
  {
    if ins == [] then
      Session(b, [])
    else
      Then(Feed(b, ins[0]), FeedAll(Feed(b, ins[0]).buffer, ins[1..]))
  }

  /** A poll followed by the session that continues from its buffer. */
  function Then(p: Polled, rest: Session): Session
  {
    Session(rest.buffer, Emitted(p) + rest.lines)
  }

  /** The characters received, in order, ignoring timeouts. */
  function Chars(ins: seq<Input>): string
    decreases |ins|
  {
    if ins == [] then [] else (if ins[0].Received? then [ins[0].ch] else []) + Chars(ins[1..])
  }

  predicate NoLineEnd(ins: seq<Input>)
  {
    forall i :: 0 <= i < |ins| ==> !(ins[i].Received? && IsLineEnd(ins[i].ch))
  }

  /** Clipping twice is clipping once. */
  lemma ClipAppend(s: string, t: string)
    ensures Clip(Clip(s) + t) == Clip(s + t)
  {
    if |s| > MaxLength {
      assert Clip(s) + t == s[..MaxLength] + t;
      assert (s + t)[..MaxLength] == s[..MaxLength];
      assert (s[..MaxLength] + t)[..MaxLength] == s[..MaxLength];
    }
  }

  lemma NoLineEndTail(ins: seq<Input>)
    requires ins != [] && NoLineEnd(ins)
    ensures !(ins[0].Received? && IsLineEnd(ins[0].ch))
    ensures NoLineEnd(ins[1..])
  {
    forall i | 0 <= i < |ins[1..]|
      ensures !(ins[1..][i].Received? && IsLineEnd(ins[1..][i].ch))
    {
      assert ins[1..][i] == ins[i + 1];
    }
  }

  /** One ordinary character, then more text: the clip after storing it is the
      clip of everything. */
  lemma TypeChar(b: Buffer, c: char, t: string)
    requires Valid(b) && !IsLineEnd(c)
    ensures Clip(Typed(Feed(b, Received(c)).buffer) + t) == Clip(Typed(b) + ([c] + t))
  {
    ClipAppend(Typed(b) + [c], t);
    assert Typed(b) + [c] + t == Typed(b) + ([c] + t);
  }

  /** Typing without a line end submits nothing and stores the first 255
      characters of everything typed, timeouts aside; the rest is dropped. */
  lemma {:induction false} TypeLine(b: Buffer, ins: seq<Input>)
    requires Valid(b)
    requires NoLineEnd(ins)
    ensures FeedAll(b, ins).lines == []
    ensures Typed(FeedAll(b, ins).buffer) == Clip(Typed(b) + Chars(ins))
    decreases |ins|
  {
    if ins == [] {
      assert Typed(b) + Chars(ins) == Typed(b);
    } else {
      NoLineEndTail(ins);
      var p := Feed(b, ins[0]);
      TypeLine(p.buffer, ins[1..]);
      assert FeedAll(b, ins) == Then(p, FeedAll(p.buffer, ins[1..]));
      match ins[0]
      case Received(c) =>
        assert Chars(ins) == [c] + Chars(ins[1..]);
        TypeChar(b, c, Chars(ins[1..]));
      case Timeout =>
        assert Chars(ins) == Chars(ins[1..]);
    }
  }

  /** In a valid buffer the string the executor sees is what was typed, up to
      the first NUL typed (none in the usual case). */
  lemma CStringOfValid(b: Buffer)
    requires Valid(b)
    ensures CString(b.chars) == CString(Typed(b))
    ensures Nul !in Typed(b) ==> CString(b.chars) == Typed(b)
    decreases b.index
  {
    CStringPrefix(b.chars, b.index);
    if Nul !in Typed(b) {
      CStringNoNul(Typed(b));
    }
  }

  /** Reading a C string stops at the first zero cell at or before `k`. */
  lemma {:induction false} CStringPrefix(s: seq<char>, k: nat)
    requires k < |s| && s[k] == Nul
    ensures CString(s) == CString(s[..k])
    decreases k
  {
    if k > 0 && s[0] != Nul {
      assert s[1..][k - 1] == Nul;
      CStringPrefix(s[1..], k - 1);
      assert s[..k][1..] == s[1..][..k - 1];
    }
  }

  /** A NUL-free head is kept whole, and the C string goes on into the tail. */
  lemma {:induction false} CStringAppend(x: string, y: seq<char>)
    requires Nul !in x
    ensures CString(x + y) == x + CString(y)
    decreases |x|
  {
    if x != [] {
      assert (x + y)[0] == x[0];
      assert (x + y)[1..] == x[1..] + y;
      assert Nul !in x[1..];
      CStringAppend(x[1..], y);
      assert x == [x[0]] + x[1..];
    } else {
      assert x + y == y;
    }
  }

  lemma {:induction false} CStringNoNul(s: string)
    requires Nul !in s
    ensures CString(s) == s
    decreases |s|
  {
    if s != [] {
      assert Nul !in s[1..];
      CStringNoNul(s[1..]);
    }
  }

  /** A whole line: from the empty buffer, typing characters (none a line
      end) and then a newline submits exactly one line, the first 255
      characters typed up to the first NUL among them, and leaves the buffer
      empty again; without a typed NUL the line is all those characters. */
  lemma SubmitLine(ins: seq<Input>)
    requires NoLineEnd(ins)
    ensures FeedAll(Empty, ins + [Received('\n')]).lines == [CString(Clip(Chars(ins)))]
    ensures Nul !in Chars(ins) ==> FeedAll(Empty, ins + [Received('\n')]).lines == [Clip(Chars(ins))]
    ensures FeedAll(Empty, ins + [Received('\n')]).buffer == Empty
  {
    FeedAllAppend(Empty, ins, [Received('\n')]);
    TypeLine(Empty, ins);
    var b := FeedAll(Empty, ins).buffer;
    assert Typed(Empty) == [];
    assert [] + Chars(ins) == Chars(ins);
    assert Typed(b) == Clip(Chars(ins));
    CStringOfValid(b);
    var last := FeedAll(b, [Received('\n')]);
    assert last.lines == [CString(b.chars)] by {
      assert [Received('\n')][1..] == [];
    }
    if Nul !in Chars(ins) {
      assert Nul !in Typed(b) by {
        assert Typed(b) == Chars(ins)[..|Typed(b)|];
      }
      CStringNoNul(Typed(b));
    }
  }

  /** Feeding two input sequences one after the other. */
  lemma FeedAllAppend(b: Buffer, a: seq<Input>, c: seq<Input>)
    requires Valid(b)
    ensures FeedAll(b, a + c).buffer == FeedAll(FeedAll(b, a).buffer, c).buffer
    ensures FeedAll(b, a + c).lines == FeedAll(b, a).lines + FeedAll(FeedAll(b, a).buffer, c).lines
  {
    FeedAllAppendBuffer(b, a, c);
    FeedAllAppendLines(b, a, c);
  }

  lemma {:induction false} FeedAllAppendBuffer(b: Buffer, a: seq<Input>, c: seq<Input>)
    requires Valid(b)
    ensures FeedAll(b, a + c).buffer == FeedAll(FeedAll(b, a).buffer, c).buffer
    decreases |a|
  {
    if a == [] {
      assert a + c == c;
    } else {
      assert (a + c)[0] == a[0];
      assert (a + c)[1..] == a[1..] + c;
      FeedAllAppendBuffer(Feed(b, a[0]).buffer, a[1..], c);
    }
  }

  lemma {:induction false} FeedAllAppendLines(b: Buffer, a: seq<Input>, c: seq<Input>)
    requires Valid(b)
    ensures FeedAll(b, a + c).lines == FeedAll(b, a).lines + FeedAll(FeedAll(b, a).buffer, c).lines
    decreases |a|
  {
    if a == [] {
      assert a + c == c;
    } else {
      assert (a + c)[0] == a[0];
      assert (a + c)[1..] == a[1..] + c;
      var p := Feed(b, a[0]);
      FeedAllAppendLines(p.buffer, a[1..], c);
      assert Emitted(p) + (FeedAll(p.buffer, a[1..]).lines + FeedAll(FeedAll(p.buffer, a[1..]).buffer, c).lines)
          == (Emitted(p) + FeedAll(p.buffer, a[1..]).lines) + FeedAll(FeedAll(p.buffer, a[1..]).buffer, c).lines;
    }
  }
}

=== FILE: pwm.dfy ===
/** PWM parameter derivation (`clock_set_pwm`): an integer clock divider and a
    counter wrap value computed from the system clock `sys` and the requested
    output frequency `hz`, and a compare level at half the wrap.

    The source computes the divider as ceil((float) sys / (4096 * hz) / 16);
    here the ceiling is exact integer arithmetic. The divider and wrap are
    stored in 16-bit variables, so the stored wrap is the exact quotient
    reduced modulo 2^16. */
module Pwm {

  /** 4096 * 16: the counter span the divider is sized for. */
  const CounterSpan: nat := 65536

  const U16Modulus: nat := 0x1_0000
  const U32Modulus: nat := 0x1_0000_0000

  /** Below this frequency the engine uses the repeating timer, never PWM. */
  const PwmMinHz: nat := 10

  /** From this frequency on, `4096 * hz` no longer fits the 32-bit product. */
  const FreqOverflowHz: nat := 0x10_0000

  /** `clock_duty_cycle`: displayed, but the compare level is always wrap / 2. */
  const DutyCyclePercent: nat := 50

  /** Largest divider the PWM peripheral's clkdiv register accepts (it must stay below 256). */
  const ClkdivMax: nat := 255

  /** What the only call path guarantees: the system clock is a nonzero
      32-bit value and the frequency passed the `freq < 10` test. */
  predicate PwmInputs(sys: nat, hz: nat)
  {
    1 <= sys < U32Modulus && PwmMinHz <= hz < FreqOverflowHz
  }

  datatype PwmConfig = PwmConfig(div: nat, wrap: nat, level: nat)

  /** Integer ceiling of a / b. */
  function CeilDiv(a: nat, b: nat): (q: nat)
    requires b > 0
    ensures (q - 1) * b < a <= q * b
  {
    if a % b == 0 then a / b else a / b + 1
  }

  /** The divider: the smallest one for which a 16-bit counter span at `hz`
      covers `sys` clock cycles. */
  function Divider(sys: nat, hz: nat): (div: nat)
    requires hz >= 1
    ensures (div - 1) * (CounterSpan * hz) < sys <= div * (CounterSpan * hz)
  {
    CeilDiv(sys, 4096 * hz * 16)
  }

  /** The wrap as the 32-bit expression `sys / div / hz` computes it, before
      it is stored in 16 bits: the number of whole `div * hz` blocks in `sys`. */
  function ExactWrap(sys: nat, div: nat, hz: nat): (w: nat)
    requires div >= 1 && hz >= 1
    ensures w * (div * hz) <= sys < (w + 1) * (div * hz)
  {
    NestedDiv(sys, div, hz);
    sys / div / hz
  }

  /** `clock_set_pwm`: the divider, the wrap as stored in `clock_pwm_wrap`,
      and the channel compare level. */
  function Configure(sys: nat, hz: nat): (c: PwmConfig)
    requires PwmInputs(sys, hz)
    ensures 1 <= c.div <= 6554
    ensures (c.div - 1) * (CounterSpan * hz) < sys <= c.div * (CounterSpan * hz)
    ensures c.wrap < U16Modulus
    ensures sys != c.div * (CounterSpan * hz) ==> c.wrap * (c.div * hz) <= sys < (c.wrap + 1) * (c.div * hz)
    ensures sys == c.div * (CounterSpan * hz) ==> c.wrap == 0
    ensures c.level == c.wrap * DutyCyclePercent / 100
    ensures c.level == c.wrap / 2
  {
    var div := Divider(sys, hz);
    DividerBounds(sys, hz);
    var exact := ExactWrap(sys, div, hz);
    ExactWrapBounds(sys, hz);
    var wrap := exact % U16Modulus;
    StoredWrap(exact);
    HalfIsDutyCycle(wrap);
    PwmConfig(div, wrap, wrap / 2)
  }

  /** The 16-bit store keeps a wrap below 65536 and turns 65536 into 0. */
  lemma StoredWrap(exact: nat)
    requires exact <= U16Modulus
    ensures exact < U16Modulus ==> exact % U16Modulus == exact
    ensures exact == U16Modulus ==> exact % U16Modulus == 0
  {
  }

  lemma HalfIsDutyCycle(w: nat)
    ensures w / 2 == w * DutyCyclePercent / 100
  {
  }

  /** The divider is at least 1 and, because hz >= 10 and sys < 2^32, at most 6554 (it fits 16 bits). */
  lemma DividerBounds(sys: nat, hz: nat)
    requires PwmInputs(sys, hz)
    ensures 1 <= Divider(sys, hz) <= 6554
  {
    var div := Divider(sys, hz);
    assert div >= 1;
    MulMono(CounterSpan * PwmMinHz, CounterSpan * hz, div - 1);
    assert (div - 1) * (CounterSpan * PwmMinHz) < U32Modulus;
  }

  /** While the system clock is at most 255 * 65536 * 10 Hz (about 167 MHz),
      every divider stays within the peripheral's clkdiv range. */
  lemma DividerWithinClkdiv(sys: nat, hz: nat)
    requires PwmInputs(sys, hz)
    requires sys <= ClkdivMax * CounterSpan * PwmMinHz
    ensures Divider(sys, hz) <= ClkdivMax
  {
    var div := Divider(sys, hz);
    assert div >= 1;
    MulMono(CounterSpan * PwmMinHz, CounterSpan * hz, div - 1);
    assert (div - 1) * (CounterSpan * PwmMinHz) < ClkdivMax * CounterSpan * PwmMinHz;
  }

  /** The exact wrap never exceeds 65536; it reaches 65536 (which the 16-bit
      store turns into 0) exactly when `sys` is a multiple 65536 * hz * div;
      and it is at least 1 whenever hz <= sys. */
  lemma ExactWrapBounds(sys: nat, hz: nat)
    requires PwmInputs(sys, hz)
    ensures var div := Divider(sys, hz);
      && ExactWrap(sys, div, hz) <= U16Modulus
      && (ExactWrap(sys, div, hz) == U16Modulus <==> sys == div * (CounterSpan * hz))
      && (hz <= sys ==> ExactWrap(sys, div, hz) >= 1)
  {
    var div := Divider(sys, hz);
    DividerBounds(sys, hz);
    var w := ExactWrap(sys, div, hz);
    assert div * (CounterSpan * hz) == CounterSpan * (div * hz);
    WrapAtMostSpan(sys, div * hz, w);
    WrapHazard(sys, div * hz, w);
    if hz <= sys {
      WrapPositive(sys, hz, div, w);
    }
  }

  /** A divider that is the ceiling for the 65536-count span leaves at most 65536 counts. */
  lemma WrapAtMostSpan(sys: nat, block: nat, w: nat)
    requires block >= 1
    requires sys <= CounterSpan * block
    requires w * block <= sys < (w + 1) * block
    ensures w <= U16Modulus
  {
    if w > U16Modulus {
      MulMono(U16Modulus + 1, w, block);
      assert false;
    }
  }

  /** The wrap is exactly 65536 iff `sys` is exactly 65536 blocks. */
  lemma WrapHazard(sys: nat, block: nat, w: nat)
    requires block >= 1
    requires sys <= CounterSpan * block
    requires w * block <= sys < (w + 1) * block
    ensures w == U16Modulus <==> sys == CounterSpan * block
  {
    if sys == CounterSpan * block {
      MulMonoStrict(w, U16Modulus + 1, block);
      MulMonoStrict(U16Modulus, w + 1, block);
    }
  }

  /** When `hz <= sys` one block of `div * hz` still fits in `sys`, so the wrap is positive. */
  lemma WrapPositive(sys: nat, hz: nat, div: nat, w: nat)
    requires PwmMinHz <= hz <= sys
    requires div >= 1
    requires (div - 1) * (CounterSpan * hz) < sys
    requires w * (div * hz) <= sys < (w + 1) * (div * hz)
    ensures w >= 1
  {
    if div >= 2 {
      MulMono(2, div, hz);
      MulMono(2 * hz, CounterSpan * hz, div - 1);
      assert div * hz <= 2 * ((div - 1) * hz);
    }
    assert div * hz <= sys;
    if w == 0 {
      assert false;
    }
  }

  /** The compare level is half the stored wrap, which is also wrap * 50 / 100:
      the level formula with the constant duty cycle. */
  lemma LevelIsHalfWrap(sys: nat, hz: nat)
    requires PwmInputs(sys, hz)
    ensures Configure(sys, hz).level * 2 <= Configure(sys, hz).wrap <= Configure(sys, hz).level * 2 + 1
  {
  }

  /** At a 125 MHz system clock and 1 kHz, the divider is 2, the wrap 62500 and
      the level 31250, and sys / div / wrap is exactly 1000 (the counter runs
      wrap + 1 counts per period, so the output is just under 1000 Hz). */
  lemma ConfigureAt125MHz()
    ensures Configure(125_000_000, 1000) == PwmConfig(2, 62500, 31250)
    ensures 125_000_000 / 2 / 62500 == 1000
  {
    var c := Configure(125_000_000, 1000);
    assert Divider(125_000_000, 1000) == 2;
    assert ExactWrap(125_000_000, 2, 1000) == 62500;
  }

  /** Dividing twice is dividing by the product. */
  lemma NestedDiv(a: nat, b: nat, c: nat)
    requires b >= 1 && c >= 1
    ensures a / b / c == a / (b * c)
    ensures (a / b / c) * (b * c) <= a < (a / b / c + 1) * (b * c)
  {
    var q1, r1 := a / b, a % b;
    var q2, r2 := q1 / c, q1 % c;
    Compose(a, b, c, q1, r1, q2, r2);
    DivUnique(a, b * c, q2, r2 * b + r1);
  }

  /** Two quotient-remainder decompositions compose into one by the product. */
  lemma Compose(a: nat, b: nat, c: nat, q1: nat, r1: nat, q2: nat, r2: nat)
    requires a == q1 * b + r1 && r1 < b
    requires q1 == q2 * c + r2 && r2 < c
    ensures a == q2 * (b * c) + (r2 * b + r1)
    ensures r2 * b + r1 < b * c
  {
    Regroup(q2, c, r2, b);
    RemainderBound(r2, c, r1, b);
  }

  lemma Regroup(q: nat, c: nat, r: nat, b: nat)
    ensures (q * c + r) * b == q * (b * c) + r * b
  {
  }

  lemma RemainderBound(r2: nat, c: nat, r1: nat, b: nat)
    requires r2 < c && r1 < b
    ensures r2 * b + r1 < b * c
  {
    MulMono(r2, c - 1, b);
    assert (c - 1) * b == c * b - b;
  }

  lemma DivUnique(a: nat, d: nat, q: nat, r: nat)
    requires d >= 1
    requires a == q * d + r && r < d
    ensures a / d == q && a % d == r
  {
    var q', r' := a / d, a % d;
    assert a == q' * d + r';
    if q' < q {
      MulMono(q' + 1, q, d);
      assert false;
    } else if q < q' {
      MulMono(q + 1, q', d);
      assert false;
    }
  }

  lemma MulMono(x: int, y: int, z: nat)
    requires x <= y
    ensures x * z <= y * z
  {
  }

  lemma MulMonoStrict(x: int, y: int, z: nat)
    requires x * z < y * z
    ensures x < y
  {
  }
}
